=== FILE: README.md ===
# SmartTrails core, modelled in Dafny

SmartTrails monitors mountain trails with sensor stations. A station POSTs a
snapshot of six sensor groups (atmospheric, light, soil, air quality,
precipitation, trail activity) to a Django backend. The backend stores the
snapshot and serves each station's latest readings. It also runs a
threshold-based trail-alert engine and keeps a registry of push-notification
device tokens. An iOS dashboard polls the station data, and it encodes the
APNs device token as hex.

This project models the following parts of the system:

- `AlertRules` and `AlertProperties` (`alert_rules.dfy`, `alert_properties.dfy`)
  model the alert engine. It runs nine checks over an optional-valued sensor
  record, concatenates their results in a fixed order, and selects the most
  severe alert. `AlertProperties` defines an independent table of firing
  conditions, one per alert kind, and proves that the analyzer returns exactly
  the alerts that fire, in order, with no duplicates.
- `Dashboard` (`dashboard.dfy`) models the iOS `DashboardViewModel` as a state
  machine. Each async operation is split at its `await` into a begin step and a
  completion step. The completion step receives `Fetched(data)` or
  `Failed(error)`. Timers carry identities, so "at most one live timer" is a
  property the model proves.
- `ReadingTable` (`reading_table.dfy`) models one reading table. Rows are
  unique on `(station, timestamp)` and kept newest first. An upsert keeps both
  rules. `.first()` is the station's newest row, and deleting a station
  cascades to its rows.
- `SensorStore` (`sensor_store.dfy`) models the store schema. It holds the
  stations, the six reading tables, and the column constraints.
- `SensorApi` and `SensorApiProperties` (`sensor_api.dfy`,
  `sensor_api_properties.dfy`) model `receive_sensor_data` and
  `get_station_data` as transitions over the store.
- `DeviceRegistry` (`device_registry.dfy`) models `register_device`,
  `unregister_device` and `test_notification`.
- `TokenHex` (`token_hex.dfy`) models the byte-to-lower-case-hex device-token
  encoder. It includes a decoder, which serves as the encoder's inverse.
- `Wrappers` (`wrappers.dfy`) defines `Option`.

Parameters stand in for the following outside inputs:

- The fetch result is an event payload.
- The APNs send result is a `bool`.
- `parse_datetime` (followed by `make_aware`) is a function
  `string -> Option<Timestamp>`.
- The server clock is a `now` argument.

Timestamps are abstract ordered values (`int`). The store's decimal columns
(temperature, humidity, pressure, UV index, soil moisture, coordinates) are
exact `real`s; its integer columns (altitude, lux, CO2 ppm, motion count,
period minutes) are `int`s. The alert engine reads lux and CO2 as `real`,
as the analyzer's float comparisons do, and the motion count as `int`.

The dashboard's errors are the `NetworkError` cases: `invalidURL`,
`networkFailure`, `decodingError`, `serverError` and `noData`.

The column constraints (character lengths, decimal precision, 32-bit
integers) are the ones a database applies when it enforces the declared column
types. The model uses them as the concrete cause of the "any exception returns
400" path in `receive_sensor_data`. In `register_device` nothing catches the
same exception, so there it becomes a 500.

`get_station_data` is modelled as written, including its unguarded
precipitation flags (see "## Findings"). A corrected handler with the flags
guarded sits beside it.

## Model

| member | source | states |
|---|---|---|
| AlertRules.ExtractSensorData | django/smart_trails/notifications/alert_system.py:89-106 | a missing group reads as all fields missing; missing rain flags read as false and a missing motion count as 0; present values pass through unchanged |
| AlertRules.CheckTemperature | django/smart_trails/notifications/alert_system.py:108-155 | at most one temperature alert; none exactly when the value is missing or in 0..30; danger exactly below -10 or above 35; warning exactly in [-10, 0) or (30, 35] |
| AlertRules.CheckHypothermiaRisk | django/smart_trails/notifications/alert_system.py:157-173 | one danger alert exactly when temp < 10 and (raining or humidity > 90); nothing when temp is missing |
| AlertRules.CheckWeather | django/smart_trails/notifications/alert_system.py:175-198 | no alert exactly when the pressure is missing or at least 950; danger exactly below 920, warning in [920, 950) |
| AlertRules.CheckRain | django/smart_trails/notifications/alert_system.py:200-210 | exactly one warning when raining, none otherwise |
| AlertRules.CheckUv | django/smart_trails/notifications/alert_system.py:212-243 | inclusive bands: danger at 11 or more, warning in [8, 11), info in [6, 8), none below 6 or when missing |
| AlertRules.CheckVisibility | django/smart_trails/notifications/alert_system.py:245-270 | alerts only below 100 lux: "Poor Visibility" exactly when also wet (raining or humidity > 85), "Low Light" exactly when dry and below 10 lux |
| AlertRules.CheckAirQuality | django/smart_trails/notifications/alert_system.py:272-303 | strict bands: danger above 5000, warning in (2000, 5000], info in (1000, 2000], none at 1000 or below or when missing |
| AlertRules.CheckTrailTraffic | django/smart_trails/notifications/alert_system.py:305-325 | informational only: none exactly at 15 or below, "high" exactly above 30 |
| AlertRules.CheckSlipperyConditions | django/smart_trails/notifications/alert_system.py:327-338 | one warning exactly when rain was detected in the last hour and temp < 5; nothing when temp is missing |
| AlertRules.Analyze | django/smart_trails/notifications/alert_system.py:51-87 | at most nine alerts; an empty sensor dictionary yields no alerts |
| AlertRules.HighestSeverityAlert | django/smart_trails/notifications/alert_system.py:340-345 | None exactly for an empty list; otherwise an alert of minimal rank (danger < warning < info), and the earliest such alert |
| AlertProperties.AnalyzeIsFiringInOrder | django/smart_trails/notifications/alert_system.py:59-87 | the analyzer's output equals the independently stated firing conditions, filtered over the fixed check order |
| AlertProperties.AnalyzeMembership | django/smart_trails/notifications/alert_system.py:51-106 | an alert kind is reported exactly when its firing condition holds on the extracted record |
| AlertProperties.AnalyzeHasNoDuplicates | django/smart_trails/notifications/alert_system.py:59-87 | no alert kind is reported twice for one record |
| Dashboard.Init | iOS/SmartTrails/SmartTrails/Shared/ViewModels/DashboardViewModel.swift:15-20 | a new view model is loading, not refreshing, and has no data, no error, no timer and no fetch in flight |
| Dashboard.ApplyOutcome | iOS/SmartTrails/SmartTrails/Shared/ViewModels/DashboardViewModel.swift:89-104 | success replaces the data and clears the error together; failure keeps the data and records the error; a non-NetworkError becomes networkFailure; nothing else changes |
| Dashboard.BeginRefresh | iOS/SmartTrails/SmartTrails/Shared/ViewModels/DashboardViewModel.swift:50-58 | while refreshing it changes nothing; otherwise it sets isRefreshing, clears the error and issues exactly one fetch |
| Dashboard.StartTimer | iOS/SmartTrails/SmartTrails/Shared/ViewModels/DashboardViewModel.swift:71-79 | the held timer is stopped before a fresh one is scheduled, so from a valid state exactly one timer is live |
| Dashboard.StopTimer | iOS/SmartTrails/SmartTrails/Shared/ViewModels/DashboardViewModel.swift:82-85 | afterwards no timer is held, and the previously held timer is no longer live |
| Dashboard.Step | iOS/SmartTrails/SmartTrails/Shared/ViewModels/DashboardViewModel.swift:39-85 | loading clears the error and issues one fetch without consulting the refresh guard; its completion applies the result (data and error), ends loading and schedules a timer; a refresh or tick while refreshing changes nothing, otherwise it clears the error and issues one fetch; a refresh completion applies the result (data and error) and ends refreshing without touching timers; stopping drops the timer and keeps the data |
| Dashboard.StepPreservesValid | iOS/SmartTrails/SmartTrails/Shared/ViewModels/DashboardViewModel.swift:39-85 | every step keeps the invariant: at most one refresh fetch in flight, exactly when isRefreshing, and only the held timer can be live |
| Dashboard.ReachableIsValid | iOS/SmartTrails/SmartTrails/Shared/ViewModels/DashboardViewModel.swift:50-85 | in every state reachable from a new view model, at most one timer is live and at most one refresh fetch is in flight |
| Dashboard.RefreshBurstIsNoop | iOS/SmartTrails/SmartTrails/Shared/ViewModels/DashboardViewModel.swift:50-55 | while a refresh is in flight, any sequence of manual or timer refresh requests leaves the state unchanged |
| Dashboard.RefreshCycle | iOS/SmartTrails/SmartTrails/Shared/ViewModels/DashboardViewModel.swift:50-68 | a real refresh sets isRefreshing, clears the error and issues one fetch; its completion applies the result and ends the refresh with nothing in flight |
| Dashboard.LoadInitialDataCycle | iOS/SmartTrails/SmartTrails/Shared/ViewModels/DashboardViewModel.swift:39-47 | the error is cleared before the single fetch; on completion isLoading is false, the data is the fetched snapshot or the old one, the error is cleared on success and recorded (a non-NetworkError as networkFailure) on failure, and exactly one timer, the held one, is live; the refresh guard is not consulted |
| Dashboard.StopAutoRefreshIdempotent | iOS/SmartTrails/SmartTrails/Shared/ViewModels/DashboardViewModel.swift:82-85 | stopping twice equals stopping once, and afterwards no timer can fire |
| Dashboard.TimerTickIsGuardedRefresh | iOS/SmartTrails/SmartTrails/Shared/ViewModels/DashboardViewModel.swift:74-78 | a timer tick behaves exactly like a guarded manual refresh |
| Dashboard.FailureKeepsSnapshot | iOS/SmartTrails/SmartTrails/Shared/ViewModels/DashboardViewModel.swift:96-98 | a failed refresh (for example serverError(503)) keeps the previous data and exposes the error |
| ReadingTable.Upsert | django/smart_trails/api/views.py:110-118 | the written row is in the result, and every other row comes from the old table |
| ReadingTable.UpsertWellFormed | django/smart_trails/sensors/models.py:43-49 | an upsert keeps the table newest first and unique on (station, timestamp) |
| ReadingTable.UpsertContents | django/smart_trails/api/views.py:108-118 | viewed as a map from key to values, an upsert writes exactly one key: a repeated timestamp overwrites instead of duplicating |
| ReadingTable.Latest | django/smart_trails/api/views.py:210-215 | none exactly when the station has no reading; otherwise a row of that station, and in an ordered table one no older than any of the station's readings |
| ReadingTable.KeyDeterminesRow | django/smart_trails/sensors/models.py:91 | in a table unique on (station, timestamp), two rows with the same key are the same row |
| ReadingTable.UpsertNewestIsLatest | django/smart_trails/sensors/models.py:87 | after upserting a reading no older than the station's others, `.first()` returns exactly that reading |
| ReadingTable.DeleteStation | django/smart_trails/sensors/models.py:61-65 | the cascade keeps only rows of other stations |
| ReadingTable.DeleteStationSpec | django/smart_trails/sensors/models.py:103-107 | the cascade removes every row of the station, keeps every other row and keeps the table well formed |
| SensorStore.DeleteStationCascade | django/smart_trails/sensors/models.py:10-14 | deleting a station removes exactly that station: the stations are the old ones minus its id, each unchanged |
| SensorStore.DeleteStationCascadeSpec | django/smart_trails/sensors/models.py:215-219 | after the cascade no reading of the station remains in any of the six tables, every reading of every other station is kept, and every integrity constraint still holds |
| SensorStore.StoredReadingsWithinColumnBounds | django/smart_trails/sensors/models.py:21-41 | stored temperature, humidity and moisture are below 1000 in magnitude, pressure below 10000 and UV index below 100 |
| SensorApi.NewStation | django/smart_trails/api/views.py:82-91 | a new station is keyed by station_id; its name defaults to station_id; latitude, longitude and altitude default to 0 and trail_name to '' |
| SensorApi.WriteReadings | django/smart_trails/api/views.py:103-171 | the transaction never changes stations, and a payload without sensor groups writes nothing |
| SensorApi.ReceiveSensorData | django/smart_trails/api/views.py:67-184 | a missing station_id, then a missing timestamp, gives 400 with nothing written; every 400 leaves the readings untouched; an existing station is never modified; a new station is the only possible change to stations; 201 reports the posted id and the parsed timestamp; the POST is accepted exactly when both keys are present, the station exists or fits its columns, the timestamp parses and every present group fits its columns |
| SensorApi.GetStationData | django/smart_trails/api/views.py:195-263 | 404 exactly for an unknown station; otherwise the station's coordinates and altitude, trail_name falling back to name, every danger flag false, each group with a reading reporting its newest row's values (a missing value as 0, a missing or zero period as 60, the rain flags copied even when null), and a group without readings giving zeros, false flags and a 60-minute period |
| SensorApi.GetStationDataGuarded | django/smart_trails/api/views.py:249-254 | the corrected handler: same 404 and same body as the handler as written except the rain flags, which are always booleans, true exactly when the newest reading says true, and unchanged wherever the written handler already gives a boolean |
| SensorApiProperties.WriteReadingsSpec | django/smart_trails/api/views.py:107-171 | each present group is upserted on (station, timestamp), absent groups are untouched, and the constraints hold afterwards |
| SensorApiProperties.ReceivePreservesValid | django/smart_trails/api/views.py:82-178 | every POST, accepted or rejected, keeps uniqueness, ordering, foreign keys and column bounds |
| SensorApiProperties.UnparseableTimestampKeepsNewStation | django/smart_trails/api/views.py:82-98 | an unparseable timestamp gives 400, yet a station created by that request remains, with no readings |
| SensorApiProperties.AcceptedPostWritesPresentGroups | django/smart_trails/api/views.py:103-178 | a 201 writes exactly the groups present, each keyed by (station, timestamp); a 201 without a sensors block writes nothing |
| SensorApiProperties.PostWithoutSensorsIsAccepted | django/smart_trails/api/views.py:70-178 | a POST with a usable station and timestamp but no sensors block gets 201 with the posted id and parsed timestamp, and writes no reading |
| SensorApiProperties.RepostIsIdempotent | django/smart_trails/api/views.py:108-171 | posting the same document twice gives the same response and the same stored contents as posting it once |
| SensorApiProperties.GetAfterPostReportsPostedValues | django/smart_trails/api/views.py:210-240 | after an accepted POST of the station's newest readings, GET returns the posted values of every group (a missing value as 0, a non-zero period as posted) with every danger flag false; as written a posted rain flag comes back exactly as posted, null included, and with the guard as `posted == true` |
| SensorApiProperties.RainFlagAsWrittenLeaksNull | django/smart_trails/api/views.py:249-254 | after posting `"precipitation": {}`, the GET handler as written reports is_raining and rain_detected_last_hour as null |
| SensorApiProperties.RainFlagIsAlwaysBoolean | django/smart_trails/api/views.py:249-254 | the guarded GET handler gives boolean rain flags for every known station, and the same post reads back false |
| DeviceRegistry.RegisterDevice | django/smart_trails/notifications/views.py:8-37 | a missing or empty token, platform or bundle_id gives 400 with no change; a token, platform or bundle_id wider than its column (200, 10, 200) gives 500 with no change; otherwise an upsert on the token that sets the fields and is_active; 201 with a fresh id for a new token, 200 with the same id for a known one; other devices unchanged |
| DeviceRegistry.UnregisterDevice | django/smart_trails/notifications/views.py:42-62 | 400 for a missing token, 404 for an unknown one; otherwise only is_active becomes false and the record stays |
| DeviceRegistry.TestNotification | django/smart_trails/notifications/views.py:65-97 | never changes the registry; 400 for a missing token, 404 for an unknown or inactive one, otherwise 200 or 500 according to the send result |
| DeviceRegistry.RegisterPreservesValid | django/smart_trails/notifications/models.py:11-13 | registration keeps at most one record per token, distinct primary keys, and every stored token, platform and bundle_id within its column width |
| DeviceRegistry.UnregisterPreservesValid | django/smart_trails/notifications/views.py:53-56 | unregistering keeps at most one record per token, distinct primary keys and the column widths |
| DeviceRegistry.UnregisterIsIdempotent | django/smart_trails/notifications/views.py:53-57 | unregistering twice succeeds both times and leaves the same registry as once |
| DeviceRegistry.ReRegisterReactivates | django/smart_trails/notifications/views.py:23-31 | an unregistered token cannot be test-notified; registering it again gives 200, reactivates it and keeps its id |
| TokenHex.EncodeByte | iOS/SmartTrails/SmartTrails/Shared/Services/NotificationService.swift:58 | a byte becomes two lower-case hex digits, zero padded and high nibble first, whose value is the byte |
| TokenHex.Encode | iOS/SmartTrails/SmartTrails/Shared/Services/NotificationService.swift:58 | exactly two characters per byte, all in 0-9a-f, with each byte's pair at its position; empty input gives the empty string |
| TokenHex.EncodeAppend | iOS/SmartTrails/SmartTrails/Shared/Services/NotificationService.swift:58 | encoding distributes over concatenation |
| TokenHex.DecodeEncode | iOS/SmartTrails/SmartTrails/Shared/Services/NotificationService.swift:58 | decoding an encoded token gives back its bytes |
| TokenHex.EncodeDecode | iOS/SmartTrails/SmartTrails/Shared/Services/NotificationService.swift:58 | every string that decodes is the encoding of its decoded bytes |
| TokenHex.EncodeInjective | iOS/SmartTrails/SmartTrails/Shared/Services/NotificationService.swift:58 | distinct tokens never encode to the same string |
| TokenHex.EncodingsAreHexStrings | iOS/SmartTrails/SmartTrails/Shared/Services/NotificationService.swift:58 | a string is the encoding of some token exactly when it has even length and only the digits 0-9a-f |

## Left out

- Alert titles, bodies and emoji are presentation text. An alert is its `AlertKind`, and severity and category are functions of the kind.
- The analyzer's `TypeError` for an explicit null `motion_count`, and the `AttributeError` for a group key present with a null value, are exceptions. The model does not raise them: `motionCount` is either absent (read as 0) or an integer.
- `AlertRules.HighestSeverityAlert` is a method and not a function, because it follows the selector's single pass.
- The analyzer's numeric inputs other than the motion count are `real`s. The model does not convert Decimal to float, because the checks only compare values exactly.
- `Dashboard` keeps only `stationId` and `timestamp` of `StationData`. The view model never inspects the other fields. The formatted display properties (`formattedTimestamp`, `stationTitle`, `locationDescription`, `coordinatesDescription`) are presentation.
- `Dashboard`: the main actor, `Timer` and the checked continuation are not modelled. Each `await` is a separate event, and a timer tick starts the guarded refresh directly. The task a tick spawns runs the same guard whenever it runs.
- `Dashboard`: the end of `fetchData` and the reset of `isRefreshing` (or `isLoading`) after it form one step. In Swift a suspension separates `continuation.resume()` from line 67, so a state with the new data while still refreshing exists briefly. No proved property depends on it.
- `NetworkService.fetchStationData` is a mock with a sleep. A fetch is the `FetchOutcome` its completion event carries.
- `receive_sensor_data`: JSON values of the wrong type are not modelled. These include a non-object group and a null `sensors` block, which raise inside the handler and give 400. A null `name` (or null location field) raises only when it creates a new station; for an existing station `get_or_create` ignores its `defaults`, so the POST is answered as if the field were absent.
- `receive_sensor_data`: the model does not round decimals to their `decimal_places`. A value is checked against its column and stored as posted.
- `receive_sensor_data`: a database that does not enforce the declared column types (SQLite) would accept an out-of-range value. The model assumes one that rejects it.
- The response's `timestamp.isoformat()` is the parsed `Timestamp` itself. Timezone handling is folded into the parser parameter.
- `get_station_data`: `float()` conversions are the identity on `real`. The nested JSON layout is a flat `StationView` with the same fields and danger flags.
- `health_check` and `index` are fixed responses.
- Serializers, URL routing and admin actions (including random test alerts) are framework plumbing.
- APNs delivery (`apns_service.py`), notification authorization and remote registration are platform I/O. The send result is a `bool` argument.
- DeviceRegistry.RegisterDevice: does not state that an updated record keeps the token it is stored under, because that holds only in a valid registry (`RegisterPreservesValid` covers it). It checks the column widths but not the foreign key on `station_id`, because the registry does not hold the station table; an unknown station would also raise and give 500. The `created_at`/`updated_at` stamps and the `platform` choices, which `update_or_create` does not validate, are not modelled.
- The station's own columns beyond the metadata that `get_or_create` sets (`installation_date`, `is_active`, the `has_*` flags) are left out. No modelled operation reads or writes them.
- The notification list store (de-duplication, retention cap, unread count) does not exist in the modelled source files. SwiftUI views, the watch app and theming are presentation.

## Findings

| source | as written | input that shows it | evidently intended | confidence | as-written member | corrected member |
|---|---|---|---|---|---|---|
| django/smart_trails/api/views.py:250-252 | `is_raining` and `rain_detected_last_hour` are copied from the newest precipitation row without the value guard every other field has, so a null stored flag is returned as JSON null | POST a snapshot whose `precipitation` group is `{}`, then GET the station: both flags come back null, and the client's non-optional `Bool` fields cannot decode them | a missing or null flag reads as false, like the other defaults | medium, not executed | SensorApi.GetStationData (shown by SensorApiProperties.RainFlagAsWrittenLeaksNull) | SensorApi.GetStationDataGuarded (proved by SensorApiProperties.RainFlagIsAlwaysBoolean) |

=== FILE: alert_properties.dfy ===
/**
 * An independent, declarative description of when each alert fires, and the
 * proof that the analyzer's chained checks produce exactly the firing alerts
 * in the fixed check order.
 */
module AlertProperties {

  import opened Wrappers
  import opened AlertRules

  const TemperatureKinds: seq<AlertKind> := [ExtremeCold, SevereCold, Freezing, ExtremeHeat, HotConditions]
  const PressureKinds: seq<AlertKind> := [SevereWeather, StormWatch]
  const UvKinds: seq<AlertKind> := [ExtremeUv, VeryHighUv, HighUv]
  const VisibilityKinds: seq<AlertKind> := [PoorVisibility, LowLight]
  const AirKinds: seq<AlertKind> := [DangerousAir, PoorAir, StuffyAir]
  const TrafficKinds: seq<AlertKind> := [HighTraffic, ModerateTraffic]

  /** Every alert kind, in the order the analyzer's checks can emit them. */
  const CanonicalOrder: seq<AlertKind> :=
    TemperatureKinds + [HypothermiaRisk] + PressureKinds + [ActiveRainfall] + UvKinds
    + VisibilityKinds + AirKinds + TrafficKinds + [SlipperyTrail]

  predicate Wet(s: Sensors, humidityLimit: real) {
    s.isRaining || (s.humidity.Some? && s.humidity.value > humidityLimit)
  }

  /** The firing condition of each alert as a closed interval statement. */
  predicate Fires(k: AlertKind, s: Sensors) {
    match k
    case ExtremeCold => s.temp.Some? && s.temp.value < -15.0
    case SevereCold => s.temp.Some? && -15.0 <= s.temp.value < -10.0
    case Freezing => s.temp.Some? && -10.0 <= s.temp.value < 0.0
    case ExtremeHeat => s.temp.Some? && s.temp.value > 35.0
    case HotConditions => s.temp.Some? && 30.0 < s.temp.value <= 35.0
    case HypothermiaRisk => s.temp.Some? && s.temp.value < 10.0 && Wet(s, 90.0)
    case SevereWeather => s.pressure.Some? && s.pressure.value < 920.0
    case StormWatch => s.pressure.Some? && 920.0 <= s.pressure.value < 950.0
    case ActiveRainfall => s.isRaining
    case ExtremeUv => s.uv.Some? && s.uv.value >= 11.0
    case VeryHighUv => s.uv.Some? && 8.0 <= s.uv.value < 11.0
    case HighUv => s.uv.Some? && 6.0 <= s.uv.value < 8.0
    case PoorVisibility => s.lux.Some? && s.lux.value < 100.0 && Wet(s, 85.0)
    case LowLight => s.lux.Some? && s.lux.value < 10.0 && !Wet(s, 85.0)
    case DangerousAir => s.co2.Some? && s.co2.value > 5000.0
    case PoorAir => s.co2.Some? && 2000.0 < s.co2.value <= 5000.0
    case StuffyAir => s.co2.Some? && 1000.0 < s.co2.value <= 2000.0
    case HighTraffic => s.motion > 30
    case ModerateTraffic => 15 < s.motion <= 30
    case SlipperyTrail => s.rainedRecently && s.temp.Some? && s.temp.value < 5.0
  }

  function Keep(k: AlertKind, s: Sensors): seq<AlertKind> {
    if Fires(k, s) then [k] else []
  }

  /** The kinds of `ks` that fire, in the order of `ks`. */
  function Firing(ks: seq<AlertKind>, s: Sensors): seq<AlertKind> {
    if |ks| == 0 then [] else Keep(ks[0], s) + Firing(ks[1..], s)
  }

  lemma {:induction false} FiringMembership(ks: seq<AlertKind>, s: Sensors, k: AlertKind)
    ensures k in Firing(ks, s) <==> k in ks && Fires(k, s)
  {
    if |ks| > 0 {
      FiringMembership(ks[1..], s, k);
      assert ks == [ks[0]] + ks[1..];
    }
  }

  lemma {:induction false} FiringAppend(a: seq<AlertKind>, b: seq<AlertKind>, s: Sensors)
    ensures Firing(a + b, s) == Firing(a, s) + Firing(b, s)
  {
    if |a| == 0 {
      assert a + b == b;
    } else {
      assert (a + b)[0] == a[0];
      assert (a + b)[1..] == a[1..] + b;
      FiringAppend(a[1..], b, s);
    }
  }

  lemma FiringCons(k: AlertKind, rest: seq<AlertKind>, s: Sensors)
    ensures Firing([k] + rest, s) == Keep(k, s) + Firing(rest, s)
  {
    assert ([k] + rest)[1..] == rest;
  }

  lemma FiringOne(k: AlertKind, s: Sensors)
    ensures Firing([k], s) == Keep(k, s)
  {
    FiringCons(k, [], s);
    assert [k] + [] == [k];
  }

  lemma FiringPair(a: AlertKind, b: AlertKind, s: Sensors)
    ensures Firing([a, b], s) == Keep(a, s) + Keep(b, s)
  {
    FiringCons(a, [b], s);
    FiringOne(b, s);
    assert [a] + [b] == [a, b];
  }

  lemma FiringTriple(a: AlertKind, b: AlertKind, c: AlertKind, s: Sensors)
    ensures Firing([a, b, c], s) == Keep(a, s) + Keep(b, s) + Keep(c, s)
  {
    FiringCons(a, [b, c], s);
    FiringPair(b, c, s);
    assert [a] + [b, c] == [a, b, c];
  }

  lemma TemperatureBlock(s: Sensors)
    ensures Firing(TemperatureKinds, s) == CheckTemperature(s.temp)
  {
    assert TemperatureKinds == [ExtremeCold, SevereCold] + [Freezing, ExtremeHeat, HotConditions];
    FiringAppend([ExtremeCold, SevereCold], [Freezing, ExtremeHeat, HotConditions], s);
    FiringPair(ExtremeCold, SevereCold, s);
    FiringTriple(Freezing, ExtremeHeat, HotConditions, s);
  }

  lemma SingleBlocks(s: Sensors)
    ensures Firing([HypothermiaRisk], s) == CheckHypothermiaRisk(s.temp, s.humidity, s.isRaining)
    ensures Firing([ActiveRainfall], s) == CheckRain(s.isRaining)
    ensures Firing([SlipperyTrail], s) == CheckSlipperyConditions(s.rainedRecently, s.temp)
  {
    FiringOne(HypothermiaRisk, s);
    FiringOne(ActiveRainfall, s);
    FiringOne(SlipperyTrail, s);
  }

  lemma BandBlocks(s: Sensors)
    ensures Firing(PressureKinds, s) == CheckWeather(s.pressure)
    ensures Firing(UvKinds, s) == CheckUv(s.uv)
    ensures Firing(VisibilityKinds, s) == CheckVisibility(s.lux, s.humidity, s.isRaining)
    ensures Firing(AirKinds, s) == CheckAirQuality(s.co2)
    ensures Firing(TrafficKinds, s) == CheckTrailTraffic(s.motion)
  {
    FiringPair(SevereWeather, StormWatch, s);
    FiringTriple(ExtremeUv, VeryHighUv, HighUv, s);
    FiringPair(PoorVisibility, LowLight, s);
    FiringTriple(DangerousAir, PoorAir, StuffyAir, s);
    FiringPair(HighTraffic, ModerateTraffic, s);
  }

  /**
   * The analyzer returns exactly the alerts whose conditions hold, in the
   * fixed check order.
   */
  lemma AnalyzeIsFiringInOrder(s: Sensors)
    ensures AnalyzeSensors(s) == Firing(CanonicalOrder, s)
  {
    TemperatureBlock(s);
    SingleBlocks(s);
    BandBlocks(s);
    var p1 := TemperatureKinds + [HypothermiaRisk];
    var p2 := p1 + PressureKinds;
    var p3 := p2 + [ActiveRainfall];
    var p4 := p3 + UvKinds;
    var p5 := p4 + VisibilityKinds;
    var p6 := p5 + AirKinds;
    var p7 := p6 + TrafficKinds;
    FiringAppend(TemperatureKinds, [HypothermiaRisk], s);
    FiringAppend(p1, PressureKinds, s);
    FiringAppend(p2, [ActiveRainfall], s);
    FiringAppend(p3, UvKinds, s);
    FiringAppend(p4, VisibilityKinds, s);
    FiringAppend(p5, AirKinds, s);
    FiringAppend(p6, TrafficKinds, s);
    FiringAppend(p7, [SlipperyTrail], s);
  }

  lemma CanonicalOrderListing()
    ensures CanonicalOrder == [
      ExtremeCold, SevereCold, Freezing, ExtremeHeat, HotConditions, HypothermiaRisk,
      SevereWeather, StormWatch, ActiveRainfall, ExtremeUv, VeryHighUv, HighUv,
      PoorVisibility, LowLight, DangerousAir, PoorAir, StuffyAir,
      HighTraffic, ModerateTraffic, SlipperyTrail]
  {
  }

  /** An alert is in the analyzer's output exactly when its condition holds. */
  lemma AnalyzeMembership(d: SensorDict, k: AlertKind)
    ensures k in Analyze(d) <==> Fires(k, ExtractSensorData(d))
  {
    var s := ExtractSensorData(d);
    AnalyzeIsFiringInOrder(s);
    FiringMembership(CanonicalOrder, s, k);
    CanonicalOrderListing();
  }

  predicate NoDuplicates(ks: seq<AlertKind>) {
    forall i, j :: 0 <= i < j < |ks| ==> ks[i] != ks[j]
  }

  lemma {:induction false} FiringKeepsDistinct(ks: seq<AlertKind>, s: Sensors)
    requires NoDuplicates(ks)
    ensures NoDuplicates(Firing(ks, s))
  {
    if |ks| > 0 {
      assert NoDuplicates(ks[1..]);
      FiringKeepsDistinct(ks[1..], s);
      FiringMembership(ks[1..], s, ks[0]);
      assert ks[0] !in ks[1..];
    }
  }

  /** Position of each kind in the canonical order. */
  function Position(k: AlertKind): nat {
    match k
    case ExtremeCold => 0
    case SevereCold => 1
    case Freezing => 2
    case ExtremeHeat => 3
    case HotConditions => 4
    case HypothermiaRisk => 5
    case SevereWeather => 6
    case StormWatch => 7
    case ActiveRainfall => 8
    case ExtremeUv => 9
    case VeryHighUv => 10
    case HighUv => 11
    case PoorVisibility => 12
    case LowLight => 13
    case DangerousAir => 14
    case PoorAir => 15
    case StuffyAir => 16
    case HighTraffic => 17
    case ModerateTraffic => 18
    case SlipperyTrail => 19
  }

  lemma CanonicalOrderDistinct()
    ensures NoDuplicates(CanonicalOrder)
  {
    CanonicalOrderListing();
    assert forall i :: 0 <= i < |CanonicalOrder| ==> Position(CanonicalOrder[i]) == i;
  }

  /** No alert is reported twice for one record. */
  lemma AnalyzeHasNoDuplicates(d: SensorDict)
    ensures NoDuplicates(Analyze(d))
  {
    var s := ExtractSensorData(d);
    AnalyzeIsFiringInOrder(s);
    CanonicalOrderDistinct();
    FiringKeepsDistinct(CanonicalOrder, s);
  }
}

=== FILE: alert_rules.dfy ===
/**
 * The trail-alert rule engine of the backend (`AlertAnalyzer`): nine
 * independent threshold checks over one sensor record, concatenated in a
 * fixed order, and a selector for the most severe alert. Alert titles,
 * bodies and emoji are presentation text and are represented only by the
 * alert's kind.
 */
module AlertRules {

  import opened Wrappers

  datatype Severity = Danger | Warning | Info

  datatype Category = TemperatureCategory | WeatherCategory | AirQualityCategory | TrailCategory

  /** One constructor per distinct alert the analyzer can emit. */
  datatype AlertKind =
    | ExtremeCold | SevereCold | Freezing | ExtremeHeat | HotConditions
    | HypothermiaRisk
    | SevereWeather | StormWatch
    | ActiveRainfall
    | ExtremeUv | VeryHighUv | HighUv
    | PoorVisibility | LowLight
    | DangerousAir | PoorAir | StuffyAir
    | HighTraffic | ModerateTraffic
    | SlipperyTrail

  function SeverityOf(k: AlertKind): Severity {
    match k
    case ExtremeCold | SevereCold | ExtremeHeat | HypothermiaRisk | SevereWeather
      | ExtremeUv | DangerousAir => Danger
    case Freezing | HotConditions | StormWatch | ActiveRainfall | VeryHighUv
      | PoorVisibility | PoorAir | SlipperyTrail => Warning
    case HighUv | LowLight | StuffyAir | HighTraffic | ModerateTraffic => Info
  }

  function CategoryOf(k: AlertKind): Category {
    match k
    case ExtremeCold | SevereCold | Freezing | ExtremeHeat | HotConditions => TemperatureCategory
    case HypothermiaRisk | SevereWeather | StormWatch | ActiveRainfall | ExtremeUv
      | VeryHighUv | HighUv | PoorVisibility | LowLight => WeatherCategory
    case DangerousAir | PoorAir | StuffyAir => AirQualityCategory
    case HighTraffic | ModerateTraffic | SlipperyTrail => TrailCategory
  }

  /** The selector's ordering: danger before warning before info. */
  function Rank(s: Severity): nat {
    match s
    case Danger => 0
    case Warning => 1
    case Info => 2
  }

  // Thresholds of the analyzer (degrees Celsius, hPa, %, ppm, UV index, lux, people per hour).
  const TempExtremeCold: real := -15.0
  const TempVeryCold: real := -10.0
  const TempCold: real := 0.0
  const TempHot: real := 30.0
  const TempExtremeHeat: real := 35.0
  const HypothermiaTemp: real := 10.0
  const SlipperyTemp: real := 5.0
  const PressureVeryLow: real := 920.0
  const PressureLow: real := 950.0
  const HumidityVeryHigh: real := 90.0
  const HumidityHigh: real := 85.0
  const Co2Poor: real := 1000.0
  const Co2Bad: real := 2000.0
  const Co2Dangerous: real := 5000.0
  const UvHigh: real := 6.0
  const UvVeryHigh: real := 8.0
  const UvExtreme: real := 11.0
  const LuxDark: real := 100.0
  const LuxVeryDark: real := 10.0
  const TrafficModerate: int := 15
  const TrafficHigh: int := 30

  // ---------------------------------------------------------------------
  // Input: the nested sensor dictionary, with every group and field optional.

  datatype AtmosphericGroup = AtmosphericGroup(temperature: Option<real>, humidity: Option<real>, pressure: Option<real>)
  datatype LightGroup = LightGroup(uvIndex: Option<real>, lux: Option<real>)
  /** `None` stands for a flag that is absent or null; both are falsy. */
  datatype PrecipitationGroup = PrecipitationGroup(isRaining: Option<bool>, rainDetectedLastHour: Option<bool>)
  datatype AirQualityGroup = AirQualityGroup(co2Ppm: Option<real>)
  /** `None` stands for an absent motion count. */
  datatype TrailActivityGroup = TrailActivityGroup(motionCount: Option<int>)

  datatype SensorDict = SensorDict(
    atmospheric: Option<AtmosphericGroup>,
    light: Option<LightGroup>,
    precipitation: Option<PrecipitationGroup>,
    airQuality: Option<AirQualityGroup>,
    trailActivity: Option<TrailActivityGroup>)

  const EmptyDict := SensorDict(None, None, None, None, None)

  /** The flat record the nine checks read. */
  datatype Sensors = Sensors(
    temp: Option<real>,
    humidity: Option<real>,
    pressure: Option<real>,
    uv: Option<real>,
    lux: Option<real>,
    isRaining: bool,
    rainedRecently: bool,
    co2: Option<real>,
    motion: int)

  function FlagOf(f: Option<bool>): bool {
    f.Some? && f.value
  }

  /** Flattens the dictionary: a missing group reads as a group with every field missing. */
  function ExtractSensorData(d: SensorDict): (s: Sensors)
    ensures d.atmospheric.None? ==> s.temp.None? && s.humidity.None? && s.pressure.None?
    ensures d.light.None? ==> s.uv.None? && s.lux.None?
    ensures d.precipitation.None? ==> !s.isRaining && !s.rainedRecently
    ensures d.airQuality.None? ==> s.co2.None?
    ensures d.trailActivity.None? ==> s.motion == 0
    ensures d.atmospheric.Some? ==>
      s.temp == d.atmospheric.value.temperature && s.humidity == d.atmospheric.value.humidity
      && s.pressure == d.atmospheric.value.pressure
    ensures d.light.Some? ==> s.uv == d.light.value.uvIndex && s.lux == d.light.value.lux
    ensures d.airQuality.Some? ==> s.co2 == d.airQuality.value.co2Ppm
    ensures d.precipitation.Some? ==>
      && (s.isRaining <==> d.precipitation.value.isRaining == Some(true))
      && (s.rainedRecently <==> d.precipitation.value.rainDetectedLastHour == Some(true))
    ensures d.trailActivity.Some? ==> s.motion == d.trailActivity.value.motionCount.GetOr(0)
  {
    var atmo := d.atmospheric.GetOr(AtmosphericGroup(None, None, None));
    var light := d.light.GetOr(LightGroup(None, None));
    var precip := d.precipitation.GetOr(PrecipitationGroup(None, None));
    var air := d.airQuality.GetOr(AirQualityGroup(None));
    var activity := d.trailActivity.GetOr(TrailActivityGroup(None));
    Sensors(
      atmo.temperature, atmo.humidity, atmo.pressure,
      light.uvIndex, light.lux,
      FlagOf(precip.isRaining), FlagOf(precip.rainDetectedLastHour),
      air.co2Ppm,
      activity.motionCount.GetOr(0))
  }

  /** `humidity and humidity > limit`: a missing (or zero) humidity is not high. */
  predicate HumidAbove(humidity: Option<real>, limit: real) {
    humidity.Some? && humidity.value != 0.0 && humidity.value > limit
  }

  // ---------------------------------------------------------------------
  // The nine checks, each returning zero or one alert.

  /** Five bands around a comfortable 0..30 degrees; at most one alert. */
  function CheckTemperature(temp: Option<real>): (r: seq<AlertKind>)
    ensures |r| <= 1
    ensures forall k :: k in r ==> CategoryOf(k) == TemperatureCategory
    ensures r == [] <==> temp.None? || (TempCold <= temp.value <= TempHot)
    ensures |r| == 1 ==> (SeverityOf(r[0]) == Danger <==> temp.value < TempVeryCold || temp.value > TempExtremeHeat)
    ensures |r| == 1 ==> (SeverityOf(r[0]) == Warning <==>
                          (TempVeryCold <= temp.value < TempCold || TempHot < temp.value <= TempExtremeHeat))
  {
    if temp.None? then []
    else if temp.value < TempExtremeCold then [ExtremeCold]
    else if temp.value < TempVeryCold then [SevereCold]
    else if temp.value < TempCold then [Freezing]
    else if temp.value > TempExtremeHeat then [ExtremeHeat]
    else if temp.value > TempHot then [HotConditions]
    else []
  }

  /** Cold (below 10 degrees) combined with rain or humidity above 90%. */
  function CheckHypothermiaRisk(temp: Option<real>, humidity: Option<real>, isRaining: bool): (r: seq<AlertKind>)
    ensures |r| <= 1
    ensures forall k :: k in r ==> k == HypothermiaRisk && SeverityOf(k) == Danger
    ensures |r| == 1 <==>
              (temp.Some? && temp.value < HypothermiaTemp && (isRaining || (humidity.Some? && humidity.value > HumidityVeryHigh)))
  {
    if temp.None? || temp.value >= HypothermiaTemp then []
    else if isRaining || HumidAbove(humidity, HumidityVeryHigh) then [HypothermiaRisk]
    else []
  }

  /** Low barometric pressure: danger below 920 hPa, warning below 950 hPa. */
  function CheckWeather(pressure: Option<real>): (r: seq<AlertKind>)
    ensures |r| <= 1
    ensures forall k :: k in r ==> CategoryOf(k) == WeatherCategory
    ensures r == [] <==> pressure.None? || pressure.value >= PressureLow
    ensures |r| == 1 ==> (SeverityOf(r[0]) == Danger <==> pressure.value < PressureVeryLow)
    ensures |r| == 1 ==> (SeverityOf(r[0]) == Warning <==> PressureVeryLow <= pressure.value)
  {
    if pressure.None? then []
    else if pressure.value < PressureVeryLow then [SevereWeather]
    else if pressure.value < PressureLow then [StormWatch]
    else []
  }

  /** Active rain always gives exactly one warning. */
  function CheckRain(isRaining: bool): (r: seq<AlertKind>)
    ensures |r| == (if isRaining then 1 else 0)
    ensures forall k :: k in r ==> k == ActiveRainfall && SeverityOf(k) == Warning
  {
    if !isRaining then [] else [ActiveRainfall]
  }

  /** UV index with inclusive lower bounds 11 / 8 / 6. */
  function CheckUv(uv: Option<real>): (r: seq<AlertKind>)
    ensures |r| <= 1
    ensures forall k :: k in r ==> CategoryOf(k) == WeatherCategory
    ensures r == [] <==> uv.None? || uv.value < UvHigh
    ensures |r| == 1 ==> (SeverityOf(r[0]) == Danger <==> uv.value >= UvExtreme)
    ensures |r| == 1 ==> (SeverityOf(r[0]) == Warning <==> UvVeryHigh <= uv.value < UvExtreme)
    ensures |r| == 1 ==> (SeverityOf(r[0]) == Info <==> UvHigh <= uv.value < UvVeryHigh)
  {
    if uv.None? then []
    else if uv.value >= UvExtreme then [ExtremeUv]
    else if uv.value >= UvVeryHigh then [VeryHighUv]
    else if uv.value >= UvHigh then [HighUv]
    else []
  }

  /** Darkness below 100 lux: a warning when wet, an info when very dark and dry. */
  function CheckVisibility(lux: Option<real>, humidity: Option<real>, isRaining: bool): (r: seq<AlertKind>)
    ensures |r| <= 1
    ensures forall k :: k in r ==> CategoryOf(k) == WeatherCategory
    ensures r != [] ==> lux.Some? && lux.value < LuxDark
    ensures r == [PoorVisibility] <==>
              (lux.Some? && lux.value < LuxDark && (isRaining || (humidity.Some? && humidity.value > HumidityHigh)))
    ensures r == [LowLight] <==>
              (lux.Some? && lux.value < LuxVeryDark && !isRaining && !(humidity.Some? && humidity.value > HumidityHigh))
  {
    if lux.None? then []
    else if lux.value < LuxDark then
      if isRaining || HumidAbove(humidity, HumidityHigh) then [PoorVisibility]
      else if lux.value < LuxVeryDark then [LowLight]
      else []
    else []
  }

  /** CO2 with strict lower bounds 5000 / 2000 / 1000 ppm. */
  function CheckAirQuality(co2: Option<real>): (r: seq<AlertKind>)
    ensures |r| <= 1
    ensures forall k :: k in r ==> CategoryOf(k) == AirQualityCategory
    ensures r == [] <==> co2.None? || co2.value <= Co2Poor
    ensures |r| == 1 ==> (SeverityOf(r[0]) == Danger <==> co2.value > Co2Dangerous)
    ensures |r| == 1 ==> (SeverityOf(r[0]) == Warning <==> Co2Bad < co2.value <= Co2Dangerous)
    ensures |r| == 1 ==> (SeverityOf(r[0]) == Info <==> Co2Poor < co2.value <= Co2Bad)
  {
    if co2.None? then []
    else if co2.value > Co2Dangerous then [DangerousAir]
    else if co2.value > Co2Bad then [PoorAir]
    else if co2.value > Co2Poor then [StuffyAir]
    else []
  }

  /** Trail traffic is informational only: above 30 high, above 15 moderate. */
  function CheckTrailTraffic(motion: int): (r: seq<AlertKind>)
    ensures |r| <= 1
    ensures forall k :: k in r ==> SeverityOf(k) == Info && CategoryOf(k) == TrailCategory
    ensures r == [] <==> motion <= TrafficModerate
    ensures r == [HighTraffic] <==> motion > TrafficHigh
  {
    if motion > TrafficHigh then [HighTraffic]
    else if motion > TrafficModerate then [ModerateTraffic]
    else []
  }

  /** Recent rain and a temperature below 5 degrees. */
  function CheckSlipperyConditions(rainedRecently: bool, temp: Option<real>): (r: seq<AlertKind>)
    ensures |r| <= 1
    ensures forall k :: k in r ==> k == SlipperyTrail && SeverityOf(k) == Warning
    ensures |r| == 1 <==> rainedRecently && temp.Some? && temp.value < SlipperyTemp
  {
    if !rainedRecently || temp.None? || temp.value >= SlipperyTemp then []
    else [SlipperyTrail]
  }

  /** All alerts for one sensor record, in the analyzer's fixed check order. */
  function AnalyzeSensors(s: Sensors): (r: seq<AlertKind>)
    ensures |r| <= 9
  {
    CheckTemperature(s.temp)
    + CheckHypothermiaRisk(s.temp, s.humidity, s.isRaining)
    + CheckWeather(s.pressure)
    + CheckRain(s.isRaining)
    + CheckUv(s.uv)
    + CheckVisibility(s.lux, s.humidity, s.isRaining)
    + CheckAirQuality(s.co2)
    + CheckTrailTraffic(s.motion)
    + CheckSlipperyConditions(s.rainedRecently, s.temp)
  }

  function Analyze(d: SensorDict): (r: seq<AlertKind>)
    ensures |r| <= 9
    ensures d == EmptyDict ==> r == []
  {
    AnalyzeSensors(ExtractSensorData(d))
  }

  // ---------------------------------------------------------------------
  // Selecting the most severe alert (Python's `min` with a severity key).

  /**
   * Keeps the first alert seen and replaces it only by a strictly more severe
   * one, as `min` does, so the earliest alert of the highest severity wins.
   */
  method HighestSeverityAlert(alerts: seq<AlertKind>) returns (r: Option<AlertKind>)
    ensures r.None? <==> |alerts| == 0
    ensures r.Some? ==> (exists i :: 0 <= i < |alerts| && alerts[i] == r.value
                          && (forall j :: 0 <= j < i ==> Rank(SeverityOf(alerts[j])) > Rank(SeverityOf(r.value))))
    ensures r.Some? ==> forall j :: 0 <= j < |alerts| ==> Rank(SeverityOf(r.value)) <= Rank(SeverityOf(alerts[j]))
  {
    if |alerts| == 0 {
      return None;
    }
    var best := 0;
    var n := 1;
    while n < |alerts|
      invariant 0 <= best < n <= |alerts|
      invariant forall j :: 0 <= j < best ==> Rank(SeverityOf(alerts[j])) > Rank(SeverityOf(alerts[best]))
      invariant forall j :: 0 <= j < n ==> Rank(SeverityOf(alerts[best])) <= Rank(SeverityOf(alerts[j]))
    {
      if Rank(SeverityOf(alerts[n])) < Rank(SeverityOf(alerts[best])) {
        best := n;
      }
      n := n + 1;
    }
    return Some(alerts[best]);
  }
}

=== FILE: dashboard.dfy ===
/**
 * The iOS dashboard view model (`DashboardViewModel`) as a state machine.
 * Each `async` operation is split at its suspension point: a begin step runs
 * the code before `await fetchData()` and issues a fetch; a completion step
 * receives the fetch outcome and runs the rest. Any interleaving of begin and
 * completion steps on the main actor is a sequence of `Event`s.
 */
module Dashboard {

  import opened Wrappers

  /** A wrapped Swift `Error`; only its identity matters here. */
  datatype Cause = Cause(description: string)

  /** The client's error taxonomy. */
  datatype NetworkError =
    | InvalidUrl
    | NetworkFailure(cause: Cause)
    | DecodingError(cause: Cause)
    | ServerError(statusCode: int)
    | NoData

  /** What a fetch can throw: a `NetworkError`, or any other error. */
  datatype FetchError = Network(error: NetworkError) | OtherError(cause: Cause)

  /** The station snapshot; its remaining fields are never inspected by the view model. */
  datatype StationData = StationData(stationId: string, timestamp: int)

  datatype FetchOutcome = Fetched(data: StationData) | Failed(failure: FetchError)

  type TimerId = nat

  datatype State = State(
    stationData: Option<StationData>,
    isLoading: bool,
    isRefreshing: bool,
    error: Option<NetworkError>,
    refreshTimer: Option<TimerId>,  // the handle the view model holds
    liveTimers: set<TimerId>,       // scheduled and not yet invalidated
    nextTimer: TimerId,             // identity for the next scheduled timer
    loadFetches: nat,               // fetches issued by loadInitialData, not yet completed
    refreshFetches: nat)            // fetches issued by refresh, not yet completed

  datatype Event =
    | LoadInitialData
    | LoadFetched(outcome: FetchOutcome)
    | Refresh
    | RefreshFetched(outcome: FetchOutcome)
    | TimerFired(timer: TimerId)    // a repeating timer fires every 300 seconds; time itself is not modelled
    | StartAutoRefresh
    | StopAutoRefresh

  /** A freshly constructed view model. */
  function Init(): (s: State)
    ensures s.isLoading && !s.isRefreshing && s.stationData.None? && s.error.None?
    ensures s.liveTimers == {} && s.loadFetches == 0 && s.refreshFetches == 0
  {
    State(None, true, false, None, None, {}, 0, 0, 0)
  }

  /** The invariant every reachable state keeps. */
  predicate Valid(s: State) {
    && s.refreshFetches <= 1
    && (s.isRefreshing <==> s.refreshFetches == 1)
    && (s.refreshTimer.None? ==> s.liveTimers == {})
    && (s.refreshTimer.Some? ==> s.liveTimers <= {s.refreshTimer.value} && s.refreshTimer.value < s.nextTimer)
  }

  /** Completions need an outstanding fetch; a tick needs a live timer. */
  predicate Enabled(s: State, e: Event) {
    match e
    case LoadFetched(_) => s.loadFetches > 0
    case RefreshFetched(_) => s.refreshFetches > 0
    case TimerFired(id) => id in s.liveTimers
    case _ => true
  }

  /** The tail of `fetchData`: store the snapshot and clear the error, or record the error. */
  function ApplyOutcome(s: State, o: FetchOutcome): (t: State)
    ensures o.Fetched? ==> t.stationData == Some(o.data) && t.error.None?
    ensures o.Failed? ==> t.stationData == s.stationData && t.error.Some?
    ensures o.Failed? && o.failure.Network? ==> t.error == Some(o.failure.error)
    ensures o.Failed? && o.failure.OtherError? ==> t.error == Some(NetworkFailure(o.failure.cause))
    ensures t.(stationData := s.stationData, error := s.error) == s
  {
    match o
    case Fetched(d) => s.(stationData := Some(d), error := None)
    case Failed(Network(e)) => s.(error := Some(e))
    case Failed(OtherError(c)) => s.(error := Some(NetworkFailure(c)))
  }

  /** `stopAutoRefresh`: invalidate the held timer, if any, and drop the handle. */
  function StopTimer(s: State): (t: State)
    ensures t.refreshTimer.None?
    ensures s.refreshTimer.Some? ==> t.liveTimers == s.liveTimers - {s.refreshTimer.value}
    ensures s.refreshTimer.None? ==> t.liveTimers == s.liveTimers
    ensures t.(refreshTimer := s.refreshTimer, liveTimers := s.liveTimers) == s
  {
    match s.refreshTimer
    case None => s
    case Some(id) => s.(refreshTimer := None, liveTimers := s.liveTimers - {id})
  }

  /** `startAutoRefresh`: stop the held timer, then schedule and hold a new one. */
  function StartTimer(s: State): (t: State)
    ensures t.refreshTimer == Some(s.nextTimer) && s.nextTimer in t.liveTimers
    ensures t.nextTimer == s.nextTimer + 1
    ensures Valid(s) ==> t.liveTimers == {s.nextTimer}
    ensures t.(refreshTimer := s.refreshTimer, liveTimers := s.liveTimers, nextTimer := s.nextTimer) == s
  {
    var stopped := StopTimer(s);
    stopped.(refreshTimer := Some(s.nextTimer),
             liveTimers := stopped.liveTimers + {s.nextTimer},
             nextTimer := s.nextTimer + 1)
  }

  /** The guarded begin of `refresh`. */
  function BeginRefresh(s: State): (t: State)
    ensures s.isRefreshing ==> t == s
    ensures !s.isRefreshing ==> t.isRefreshing && t.error.None? && t.refreshFetches == s.refreshFetches + 1
    ensures !s.isRefreshing ==> t.(isRefreshing := false, error := s.error, refreshFetches := s.refreshFetches) == s
  {
    if s.isRefreshing then s
    else s.(isRefreshing := true, error := None, refreshFetches := s.refreshFetches + 1)
  }

  /**
   * One event: `loadInitialData` up to its `await`, its completion (which
   * starts auto-refresh), the guarded start of `refresh`, its completion,
   * a timer tick, and the two timer controls.
   */
  function Step(s: State, e: Event): (t: State)
    requires Enabled(s, e)
    ensures e.LoadInitialData? ==>
      && t.isLoading && t.error.None? && t.loadFetches == s.loadFetches + 1
      && t.isRefreshing == s.isRefreshing && t.refreshFetches == s.refreshFetches
    ensures e.LoadFetched? ==>
      && !t.isLoading && t.loadFetches == s.loadFetches - 1
      && t.error == ApplyOutcome(s, e.outcome).error
      && t.refreshTimer == Some(s.nextTimer) && s.nextTimer in t.liveTimers
      && t.stationData == (if e.outcome.Fetched? then Some(e.outcome.data) else s.stationData)
    ensures e.RefreshFetched? ==>
      && !t.isRefreshing && t.refreshFetches == s.refreshFetches - 1
      && t.error == ApplyOutcome(s, e.outcome).error
      && t.stationData == (if e.outcome.Fetched? then Some(e.outcome.data) else s.stationData)
      && t.refreshTimer == s.refreshTimer && t.liveTimers == s.liveTimers
    ensures (e.Refresh? || e.TimerFired?) && s.isRefreshing ==> t == s
    ensures (e.Refresh? || e.TimerFired?) && !s.isRefreshing ==>
      t.isRefreshing && t.error.None? && t.refreshFetches == s.refreshFetches + 1
    ensures e.StopAutoRefresh? ==> t.refreshTimer.None? && t.stationData == s.stationData
  {
    match e
    case LoadInitialData =>
      s.(isLoading := true, error := None, loadFetches := s.loadFetches + 1)
    case LoadFetched(o) =>
      var applied := ApplyOutcome(s, o);
      StartTimer(applied.(isLoading := false, loadFetches := s.loadFetches - 1))
    case Refresh =>
      BeginRefresh(s)
    case RefreshFetched(o) =>
      ApplyOutcome(s, o).(isRefreshing := false, refreshFetches := s.refreshFetches - 1)
    case TimerFired(_) =>
      BeginRefresh(s)
    case StartAutoRefresh =>
      StartTimer(s)
    case StopAutoRefresh =>
      StopTimer(s)
  }

  /** Every step keeps the invariant. */
  lemma StepPreservesValid(s: State, e: Event)
    requires Valid(s) && Enabled(s, e)
    ensures Valid(Step(s, e))
  {
  }

  /** Whether a sequence of events can run, one after another, from `s`. */
  predicate Executable(s: State, evs: seq<Event>)
    decreases |evs|
  {
    |evs| == 0 || (Enabled(s, evs[0]) && Executable(Step(s, evs[0]), evs[1..]))
  }

  function Run(s: State, evs: seq<Event>): State
    requires Executable(s, evs)
    decreases |evs|
  {
    if |evs| == 0 then s else Run(Step(s, evs[0]), evs[1..])
  }

  /** Every state reachable from a new view model is valid. */
  lemma {:induction false} RunPreservesValid(s: State, evs: seq<Event>)
    requires Valid(s) && Executable(s, evs)
    ensures Valid(Run(s, evs))
    decreases |evs|
  {
    if |evs| > 0 {
      StepPreservesValid(s, evs[0]);
      RunPreservesValid(Step(s, evs[0]), evs[1..]);
    }
  }

  lemma ReachableIsValid(evs: seq<Event>)
    requires Executable(Init(), evs)
    ensures Valid(Run(Init(), evs))
    ensures |Run(Init(), evs).liveTimers| <= 1
    ensures Run(Init(), evs).refreshFetches <= 1
  {
    RunPreservesValid(Init(), evs);
    var t := Run(Init(), evs);
    if t.refreshTimer.Some? {
      SubsetOfSingletonSize(t.liveTimers, t.refreshTimer.value);
    }
  }

  lemma SubsetOfSingletonSize(xs: set<TimerId>, x: TimerId)
    requires xs <= {x}
    ensures |xs| <= 1
  {
    if xs != {} {
      assert xs == {x};
    }
  }

  predicate IsRefreshRequest(e: Event) {
    e.Refresh? || e.TimerFired?
  }

  /**
   * While a refresh is in flight, any burst of manual or timer-triggered
   * refresh requests leaves the state exactly as it was: no second fetch is
   * issued and nothing is written.
   */
  lemma {:induction false} RefreshBurstIsNoop(s: State, evs: seq<Event>)
    requires s.isRefreshing
    requires forall i :: 0 <= i < |evs| ==> IsRefreshRequest(evs[i]) && (evs[i].TimerFired? ==> evs[i].timer in s.liveTimers)
    ensures Executable(s, evs) && Run(s, evs) == s
    decreases |evs|
  {
    if |evs| > 0 {
      assert Step(s, evs[0]) == s;
      RefreshBurstIsNoop(s, evs[1..]);
    }
  }

  /**
   * A genuine refresh cycle: the guard passes, exactly one fetch is issued
   * with the error cleared, and its completion applies the outcome and ends
   * the refresh with no fetch left outstanding.
   */
  lemma RefreshCycle(s: State, o: FetchOutcome)
    requires Valid(s) && !s.isRefreshing
    ensures var begun := Step(s, Refresh);
      && begun.isRefreshing && begun.error.None? && begun.refreshFetches == 1
      && Enabled(begun, RefreshFetched(o))
      && var done := Step(begun, RefreshFetched(o));
      && !done.isRefreshing && done.refreshFetches == 0
      && done.stationData == (if o.Fetched? then Some(o.data) else s.stationData)
      && (o.Fetched? <==> done.error.None?)
      && done.isLoading == s.isLoading && done.refreshTimer == s.refreshTimer
  {
  }

  /**
   * `loadInitialData`: the error is cleared before its fetch, and once the
   * fetch completes loading is over and exactly one timer is live, the one
   * the view model holds. No refresh guard is involved.
   */
  lemma LoadInitialDataCycle(s: State, o: FetchOutcome)
    requires Valid(s)
    ensures var begun := Step(s, LoadInitialData);
      && begun.isLoading && begun.error.None? && begun.loadFetches == s.loadFetches + 1
      && begun.isRefreshing == s.isRefreshing
      && Enabled(begun, LoadFetched(o))
      && var done := Step(begun, LoadFetched(o));
      && !done.isLoading && done.loadFetches == s.loadFetches
      && done.stationData == (if o.Fetched? then Some(o.data) else s.stationData)
      && (o.Fetched? ==> done.error.None?)
      && (o.Failed? && o.failure.Network? ==> done.error == Some(o.failure.error))
      && (o.Failed? && o.failure.OtherError? ==> done.error == Some(NetworkFailure(o.failure.cause)))
      && done.refreshTimer.Some? && done.liveTimers == {done.refreshTimer.value}
  {
  }

  /** Stopping is idempotent, and afterwards no timer can fire. */
  lemma StopAutoRefreshIdempotent(s: State)
    requires Valid(s)
    ensures Step(Step(s, StopAutoRefresh), StopAutoRefresh) == Step(s, StopAutoRefresh)
    ensures Step(s, StopAutoRefresh).liveTimers == {}
    ensures forall id :: !Enabled(Step(s, StopAutoRefresh), TimerFired(id))
  {
  }

  /** A timer tick goes through the same guard as a manual refresh. */
  lemma TimerTickIsGuardedRefresh(s: State, id: TimerId)
    requires id in s.liveTimers
    ensures Step(s, TimerFired(id)) == Step(s, Refresh)
  {
  }

  /**
   * A failed fetch never discards a good snapshot: with prior data, a
   * failure such as `serverError(503)` keeps it and exposes the error.
   */
  lemma FailureKeepsSnapshot(s: State, err: NetworkError)
    requires Valid(s) && s.refreshFetches == 1
    ensures var t := Step(s, RefreshFetched(Failed(Network(err))));
      t.stationData == s.stationData && t.error == Some(err) && !t.isRefreshing
  {
  }
}

=== FILE: device_registry.dfy ===
/**
 * The push-notification device registry of the backend: `register_device`,
 * `unregister_device` and `test_notification` over the `DeviceToken` table,
 * whose `token` column is unique. The APNs send is outside the model: its
 * result enters as a boolean.
 */
module DeviceRegistry {

  import opened Wrappers

  type Token = string

  datatype Device = Device(
    deviceId: nat,
    token: Token,
    platform: string,
    bundleId: string,
    stationId: Option<string>,
    isActive: bool)

  /** The table keyed by its unique token, and the next auto-increment primary key. */
  datatype Registry = Registry(devices: map<Token, Device>, nextId: nat)

  const EmptyRegistry := Registry(map[], 0)

  // Column widths of the `DeviceToken` table.
  const MaxTokenLength := 200
  const MaxPlatformLength := 10
  const MaxBundleIdLength := 200

  /** Whether a row fits its columns; a database that enforces them rejects any other write. */
  predicate Fits(token: Token, platform: string, bundleId: string) {
    |token| <= MaxTokenLength && |platform| <= MaxPlatformLength && |bundleId| <= MaxBundleIdLength
  }

  predicate Valid(r: Registry) {
    && (forall t :: t in r.devices ==> r.devices[t].token == t && r.devices[t].deviceId < r.nextId)
    && (forall t :: t in r.devices ==> Fits(t, r.devices[t].platform, r.devices[t].bundleId))
    && (forall t, u :: t in r.devices && u in r.devices && t != u ==> r.devices[t].deviceId != r.devices[u].deviceId)
  }

  datatype Outcome =
    | DeviceRegistered(registeredId: nat)
    | DeviceUpdated(updatedId: nat)
    | RegistrationFieldsRequired
    | TokenRequired
    | DeviceUnregistered
    | DeviceNotFound
    | DeviceNotFoundOrInactive
    | NotificationSent
    | NotificationFailed
    | RegistrationFailed   // the write raised; nothing catches it

  /** The HTTP status each outcome is answered with. */
  function Status(o: Outcome): int {
    match o
    case DeviceRegistered(_) => 201
    case DeviceUpdated(_) => 200
    case RegistrationFieldsRequired => 400
    case TokenRequired => 400
    case DeviceUnregistered => 200
    case DeviceNotFound => 404
    case DeviceNotFoundOrInactive => 404
    case NotificationSent => 200
    case NotificationFailed => 500
    case RegistrationFailed => 500
  }

  datatype Reply = Reply(registry: Registry, outcome: Outcome)

  /** Python truthiness of an optional request string: absent, null and "" are all false. */
  predicate Given(v: Option<string>) {
    v.Some? && v.value != ""
  }

  /**
   * `POST register_device`: an upsert on the token that always (re)activates
   * it. A value wider than its column makes the write raise, and the view
   * does not catch it, so the request fails with 500.
   */
  function RegisterDevice(r: Registry, token: Option<Token>, platform: Option<string>, bundleId: Option<string>,
                          stationId: Option<string>): (rep: Reply)
    ensures !Given(token) || !Given(platform) || !Given(bundleId) ==> rep == Reply(r, RegistrationFieldsRequired)
    ensures Given(token) && Given(platform) && Given(bundleId) && !Fits(token.value, platform.value, bundleId.value) ==>
      rep == Reply(r, RegistrationFailed) && Status(rep.outcome) == 500
    ensures Given(token) && Given(platform) && Given(bundleId) && Fits(token.value, platform.value, bundleId.value) ==>
      var t := token.value;
      && t in rep.registry.devices
      && var d := rep.registry.devices[t];
      && d.platform == platform.value && d.bundleId == bundleId.value && d.stationId == stationId && d.isActive
      && (t in r.devices ==> rep.outcome == DeviceUpdated(r.devices[t].deviceId)
                             && rep.registry.devices[t].deviceId == r.devices[t].deviceId)
      && (t !in r.devices ==> rep.outcome == DeviceRegistered(r.nextId) && rep.registry.devices[t].deviceId == r.nextId)
      && rep.registry.devices.Keys == r.devices.Keys + {t}
      && (forall u :: u in r.devices && u != t ==> rep.registry.devices[u] == r.devices[u])
  {
    if !Given(token) || !Given(platform) || !Given(bundleId) then Reply(r, RegistrationFieldsRequired)
    else if !Fits(token.value, platform.value, bundleId.value) then Reply(r, RegistrationFailed)
    else
      var t := token.value;
      if t in r.devices then
        var d := r.devices[t];
        Reply(r.(devices := r.devices[t := d.(platform := platform.value, bundleId := bundleId.value,
                                              stationId := stationId, isActive := true)]),
              DeviceUpdated(d.deviceId))
      else
        var d := Device(r.nextId, t, platform.value, bundleId.value, stationId, true);
        Reply(Registry(r.devices[t := d], r.nextId + 1), DeviceRegistered(r.nextId))
  }

  /** `POST unregister_device`: a soft delete that keeps the record. */
  function UnregisterDevice(r: Registry, token: Option<Token>): (rep: Reply)
    ensures !Given(token) ==> rep == Reply(r, TokenRequired)
    ensures Given(token) && token.value !in r.devices ==> rep == Reply(r, DeviceNotFound)
    ensures Given(token) && token.value in r.devices ==>
      && rep.outcome == DeviceUnregistered
      && rep.registry == r.(devices := r.devices[token.value := r.devices[token.value].(isActive := false)])
  {
    if !Given(token) then Reply(r, TokenRequired)
    else if token.value !in r.devices then Reply(r, DeviceNotFound)
    else
      var t := token.value;
      Reply(r.(devices := r.devices[t := r.devices[t].(isActive := false)]), DeviceUnregistered)
  }

  /** `POST test_notification`, given whether the APNs send succeeds. It never changes the registry. */
  function TestNotification(r: Registry, token: Option<Token>, sendSucceeds: bool): (rep: Reply)
    ensures rep.registry == r
    ensures !Given(token) ==> rep.outcome == TokenRequired
    ensures Given(token) && (token.value !in r.devices || !r.devices[token.value].isActive) ==>
              rep.outcome == DeviceNotFoundOrInactive
    ensures Given(token) && token.value in r.devices && r.devices[token.value].isActive ==>
              rep.outcome == (if sendSucceeds then NotificationSent else NotificationFailed)
  {
    if !Given(token) then Reply(r, TokenRequired)
    else if token.value !in r.devices || !r.devices[token.value].isActive then Reply(r, DeviceNotFoundOrInactive)
    else if sendSucceeds then Reply(r, NotificationSent)
    else Reply(r, NotificationFailed)
  }

  /** Registration keeps tokens and primary keys unique. */
  lemma RegisterPreservesValid(r: Registry, token: Option<Token>, platform: Option<string>, bundleId: Option<string>,
                               stationId: Option<string>)
    requires Valid(r)
    ensures Valid(RegisterDevice(r, token, platform, bundleId, stationId).registry)
  {
  }

  lemma UnregisterPreservesValid(r: Registry, token: Option<Token>)
    requires Valid(r)
    ensures Valid(UnregisterDevice(r, token).registry)
  {
  }

  /** Unregistering twice succeeds twice and leaves the same registry as once. */
  lemma UnregisterIsIdempotent(r: Registry, t: Token)
    requires t != "" && t in r.devices
    ensures var once := UnregisterDevice(r, Some(t));
      var twice := UnregisterDevice(once.registry, Some(t));
      twice.registry == once.registry && Status(twice.outcome) == 200 && Status(once.outcome) == 200
  {
  }

  /**
   * An unregistered token is kept but can no longer be notified, and
   * registering it again reactivates the same record with status 200.
   */
  lemma ReRegisterReactivates(r: Registry, t: Token, platform: string, bundleId: string, stationId: Option<string>)
    requires t != "" && platform != "" && bundleId != "" && t in r.devices
    requires Fits(t, platform, bundleId)
    ensures var off := UnregisterDevice(r, Some(t)).registry;
      && t in off.devices && !off.devices[t].isActive
      && TestNotification(off, Some(t), true).outcome == DeviceNotFoundOrInactive
      && var on := RegisterDevice(off, Some(t), Some(platform), Some(bundleId), stationId);
      && Status(on.outcome) == 200
      && on.registry.devices[t].isActive
      && on.registry.devices[t].deviceId == r.devices[t].deviceId
  {
  }
}

=== FILE: reading_table.dfy ===
/**
 * One reading table of the backend (`AtmosphericReading`, `LightReading`, ...):
 * rows keyed by `(station, timestamp)` under a uniqueness constraint, kept in
 * the tables' default ordering, newest timestamp first. The table is
 * generic in the sensor values a row carries.
 */
module ReadingTable {

  import opened Wrappers

  type StationId = string

  /** Timestamps are abstract ordered instants. */
  type Timestamp = int

  datatype Key = Key(station: StationId, timestamp: Timestamp)

  datatype Row<V> = Row(station: StationId, timestamp: Timestamp, values: V) {
    function KeyOf(): Key { Key(station, timestamp) }
  }

  type Table<V> = seq<Row<V>>

  /** The `ordering = ['-timestamp']` of every reading table. */
  predicate NewestFirst<V>(t: Table<V>) {
    forall i, j :: 0 <= i < j < |t| ==> t[i].timestamp >= t[j].timestamp
  }

  /** The `unique_together = [['station', 'timestamp']]` of every reading table. */
  predicate UniqueKeys<V>(t: Table<V>) {
    forall i, j :: 0 <= i < j < |t| ==> t[i].KeyOf() != t[j].KeyOf()
  }

  predicate WellFormed<V>(t: Table<V>) {
    NewestFirst(t) && UniqueKeys(t)
  }

  /** The table's contents as a map from key to values. */
  function Contents<V>(t: Table<V>): map<Key, V> {
    if |t| == 0 then map[] else Contents(t[1..])[t[0].KeyOf() := t[0].values]
  }

  lemma {:induction false} ContentsKeys<V>(t: Table<V>, k: Key)
    ensures k in Contents(t) <==> exists i :: 0 <= i < |t| && t[i].KeyOf() == k
  {
    if |t| > 0 {
      ContentsKeys(t[1..], k);
      if k in Contents(t[1..]) {
        var i :| 0 <= i < |t[1..]| && t[1..][i].KeyOf() == k;
        assert t[i + 1].KeyOf() == k;
      }
      if exists i :: 0 <= i < |t| && t[i].KeyOf() == k {
        var i :| 0 <= i < |t| && t[i].KeyOf() == k;
        if i > 0 {
          assert t[1..][i - 1].KeyOf() == k;
        }
      }
    }
  }

  /** In a well-formed table every later row is no newer than, and keyed apart from, the head. */
  lemma HeadDominates<V>(t: Table<V>)
    requires WellFormed(t) && |t| > 0
    ensures forall x :: x in t[1..] ==> x.timestamp <= t[0].timestamp && x.KeyOf() != t[0].KeyOf()
    ensures WellFormed(t[1..])
  {
    forall x | x in t[1..]
      ensures x.timestamp <= t[0].timestamp && x.KeyOf() != t[0].KeyOf()
    {
      var i :| 0 <= i < |t[1..]| && t[1..][i] == x;
      assert t[i + 1] == x;
    }
  }

  /** Consing a row that dominates a well-formed table keeps it well formed. */
  lemma ConsWellFormed<V>(x: Row<V>, rest: Table<V>)
    requires WellFormed(rest)
    requires forall y :: y in rest ==> y.timestamp <= x.timestamp && y.KeyOf() != x.KeyOf()
    ensures WellFormed([x] + rest)
  {
    var r := [x] + rest;
    assert forall i :: 1 <= i < |r| ==> r[i] == rest[i - 1];
    assert forall i :: 1 <= i < |r| ==> r[i] in rest;
  }

  /**
   * `update_or_create(station=..., timestamp=..., defaults=...)`: replaces
   * the values of the row with that key, or inserts a new row where the
   * ordering puts it.
   */
  function Upsert<V>(t: Table<V>, row: Row<V>): (r: Table<V>)
    ensures row in r
    ensures forall x :: x in r ==> x == row || x in t
  {
    if |t| == 0 then [row]
    else if t[0].KeyOf() == row.KeyOf() then [row] + t[1..]
    else if t[0].timestamp < row.timestamp then [row] + t
    else
      var rest := Upsert(t[1..], row);
      assert forall x :: x in t[1..] ==> x in t;
      [t[0]] + rest
  }

  /** Upserting keeps the ordering and the uniqueness constraint. */
  lemma {:induction false} UpsertWellFormed<V>(t: Table<V>, row: Row<V>)
    requires WellFormed(t)
    ensures WellFormed(Upsert(t, row))
  {
    if |t| > 0 {
      HeadDominates(t);
      if t[0].KeyOf() == row.KeyOf() {
        ConsWellFormed(row, t[1..]);
      } else if t[0].timestamp < row.timestamp {
        forall y | y in t
          ensures y.timestamp <= row.timestamp && y.KeyOf() != row.KeyOf()
        {
          if y != t[0] {
            assert y in t[1..];
          }
        }
        ConsWellFormed(row, t);
      } else {
        UpsertWellFormed(t[1..], row);
        ConsWellFormed(t[0], Upsert(t[1..], row));
      }
    }
  }

  /** Abstractly, upserting writes one key of the table's contents. */
  lemma {:induction false} UpsertContents<V>(t: Table<V>, row: Row<V>)
    ensures Contents(Upsert(t, row)) == Contents(t)[row.KeyOf() := row.values]
  {
    if |t| == 0 {
    } else if t[0].KeyOf() == row.KeyOf() {
      assert ([row] + t[1..])[1..] == t[1..];
    } else if t[0].timestamp < row.timestamp {
      assert ([row] + t)[1..] == t;
    } else {
      var rest := Upsert(t[1..], row);
      UpsertContents(t[1..], row);
      assert ([t[0]] + rest)[1..] == rest;
    }
  }

  /** Whether the table holds a reading for `station`. */
  predicate HasStation<V>(t: Table<V>, station: StationId) {
    exists i :: 0 <= i < |t| && t[i].station == station
  }

  /**
   * `station.<group>_readings.first()`: the first row of the station in the
   * table's ordering, which is the station's newest reading.
   */
  function Latest<V>(t: Table<V>, station: StationId): (r: Option<Row<V>>)
    ensures r.None? <==> !HasStation(t, station)
    ensures r.Some? ==> r.value in t && r.value.station == station
    ensures r.Some? && NewestFirst(t) ==>
              forall i :: 0 <= i < |t| && t[i].station == station ==> t[i].timestamp <= r.value.timestamp
  {
    if |t| == 0 then None
    else if t[0].station == station then Some(t[0])
    else
      var r := Latest(t[1..], station);
      assert forall i :: 1 <= i < |t| ==> t[i] == t[1..][i - 1];
      r
  }

  /** Two rows of a well-formed table with the same key are the same row. */
  lemma KeyDeterminesRow<V>(t: Table<V>, x: Row<V>, y: Row<V>)
    requires UniqueKeys(t) && x in t && y in t && x.KeyOf() == y.KeyOf()
    ensures x == y
  {
    var i :| 0 <= i < |t| && t[i] == x;
    var j :| 0 <= j < |t| && t[j] == y;
  }

  /**
   * After upserting a row no older than any reading of its station, that row
   * is the station's latest reading.
   */
  lemma UpsertNewestIsLatest<V>(t: Table<V>, row: Row<V>)
    requires WellFormed(t)
    requires forall x :: x in t && x.station == row.station ==> x.timestamp <= row.timestamp
    ensures Latest(Upsert(t, row), row.station) == Some(row)
  {
    var r := Upsert(t, row);
    UpsertWellFormed(t, row);
    var l := Latest(r, row.station);
    assert HasStation(r, row.station) by {
      var i :| 0 <= i < |r| && r[i] == row;
    }
    var k :| 0 <= k < |r| && r[k] == row;
    assert l.value.timestamp >= row.timestamp;
    assert l.value.KeyOf() == row.KeyOf();
    KeyDeterminesRow(r, l.value, row);
  }

  /** The cascade of `on_delete=models.CASCADE`: every reading of `station` goes. */
  function DeleteStation<V>(t: Table<V>, station: StationId): (r: Table<V>)
    ensures forall x :: x in r ==> x in t && x.station != station
  {
    if |t| == 0 then []
    else
      var rest := DeleteStation(t[1..], station);
      assert forall x :: x in t[1..] ==> x in t;
      if t[0].station == station then rest else [t[0]] + rest
  }

  /** The cascade removes exactly the station's rows and keeps the table well formed. */
  lemma {:induction false} DeleteStationSpec<V>(t: Table<V>, station: StationId)
    requires WellFormed(t)
    ensures WellFormed(DeleteStation(t, station))
    ensures !HasStation(DeleteStation(t, station), station)
    ensures forall x :: x in t && x.station != station ==> x in DeleteStation(t, station)
  {
    if |t| > 0 {
      HeadDominates(t);
      DeleteStationSpec(t[1..], station);
      var rest := DeleteStation(t[1..], station);
      if t[0].station != station {
        ConsWellFormed(t[0], rest);
      }
      forall x | x in t && x.station != station
        ensures x in DeleteStation(t, station)
      {
        if x != t[0] {
          assert x in t[1..];
        }
      }
    }
  }
}

=== FILE: sensor_api.dfy ===
/**
 * The two sensor endpoints of the backend: `receive_sensor_data` (POST of
 * one station snapshot) and `get_station_data` (GET of a station's newest
 * readings). Both are transitions over the relational store. Timestamp
 * parsing is a parameter (an abstract partial function), and so is the
 * server clock.
 */
module SensorApi {

  import opened Wrappers
  import opened ReadingTable
  import opened SensorStore

  // ---------------------------------------------------------------------
  // The POSTed JSON document; every key may be absent.

  datatype LocationPayload = LocationPayload(
    latitude: Option<real>, longitude: Option<real>, altitude: Option<int>, trailName: Option<string>)

  /** Each present group carries the values written to its table (absent fields are null). */
  datatype SensorsPayload = SensorsPayload(
    atmospheric: Option<Atmospheric>,
    light: Option<Light>,
    soil: Option<Soil>,
    airQuality: Option<AirQuality>,
    precipitation: Option<Precipitation>,
    trailActivity: Option<TrailActivity>)

  const NoSensors := SensorsPayload(None, None, None, None, None, None)

  datatype Payload = Payload(
    stationId: Option<StationId>,
    timestamp: Option<string>,
    name: Option<string>,
    location: Option<LocationPayload>,
    sensors: Option<SensorsPayload>)

  /** `parse_datetime` followed by `make_aware`: `None` for an unparseable string. */
  type TimestampParser = string -> Option<Timestamp>

  datatype IngestError =
    | MissingStationId
    | MissingTimestamp
    | InvalidTimestamp
    | StoreError        // an exception raised by a write, caught by the handler

  datatype IngestResponse = Created(stationId: StationId, timestamp: Timestamp) | BadRequest(error: IngestError) {
    function Status(): int {
      if Created? then 201 else 400
    }
  }

  datatype IngestResult = IngestResult(store: Store, response: IngestResponse)

  /** The `defaults` of `get_or_create` for a station seen for the first time. */
  function NewStation(id: StationId, p: Payload): (st: Station)
    ensures st.stationId == id
    ensures p.name.None? ==> st.name == id
    ensures p.name.Some? ==> st.name == p.name.value
    ensures p.location.None? ==> st.latitude == 0.0 && st.longitude == 0.0 && st.altitude == 0 && st.trailName == ""
    ensures p.location.Some? ==>
      var loc := p.location.value;
      && (loc.latitude.None? ==> st.latitude == 0.0) && (loc.latitude.Some? ==> st.latitude == loc.latitude.value)
      && (loc.longitude.None? ==> st.longitude == 0.0) && (loc.longitude.Some? ==> st.longitude == loc.longitude.value)
      && (loc.altitude.None? ==> st.altitude == 0) && (loc.altitude.Some? ==> st.altitude == loc.altitude.value)
      && (loc.trailName.None? ==> st.trailName == "") && (loc.trailName.Some? ==> st.trailName == loc.trailName.value)
  {
    var loc := p.location.GetOr(LocationPayload(None, None, None, None));
    Station(id, p.name.GetOr(id), loc.latitude.GetOr(0.0), loc.longitude.GetOr(0.0),
            loc.altitude.GetOr(0), loc.trailName.GetOr(""))
  }

  /** Whether every group present in the payload can be stored in its table's columns. */
  predicate SensorsFit(sp: SensorsPayload) {
    && (sp.atmospheric.Some? ==> AtmosphericFits(sp.atmospheric.value))
    && (sp.light.Some? ==> LightFits(sp.light.value))
    && (sp.soil.Some? ==> SoilFits(sp.soil.value))
    && (sp.airQuality.Some? ==> AirQualityFits(sp.airQuality.value))
    && (sp.trailActivity.Some? ==> TrailActivityFits(sp.trailActivity.value))
  }

  function UpsertIfPresent<V>(t: Table<V>, id: StationId, ts: Timestamp, group: Option<V>): Table<V> {
    match group
    case None => t
    case Some(v) => Upsert(t, Row(id, ts, v))
  }

  /** The body of the `transaction.atomic()` block: one upsert per present group. */
  function WriteReadings(s: Store, id: StationId, ts: Timestamp, sp: SensorsPayload): (r: Store)
    ensures r.stations == s.stations
    ensures sp == NoSensors ==> r == s
  {
    s.(atmospheric := UpsertIfPresent(s.atmospheric, id, ts, sp.atmospheric),
       light := UpsertIfPresent(s.light, id, ts, sp.light),
       soil := UpsertIfPresent(s.soil, id, ts, sp.soil),
       airQuality := UpsertIfPresent(s.airQuality, id, ts, sp.airQuality),
       precipitation := UpsertIfPresent(s.precipitation, id, ts, sp.precipitation),
       trailActivity := UpsertIfPresent(s.trailActivity, id, ts, sp.trailActivity))
  }

  /** Whether the six reading tables of two stores agree. */
  predicate SameReadings(a: Store, b: Store) {
    && a.atmospheric == b.atmospheric && a.light == b.light && a.soil == b.soil
    && a.airQuality == b.airQuality && a.precipitation == b.precipitation && a.trailActivity == b.trailActivity
  }

  /**
   * `POST /api/v1/sensors/data`. The station is looked up or created before
   * the timestamp is parsed, outside the transaction; the reading writes
   * inside the transaction happen all together or not at all.
   */
  function ReceiveSensorData(s: Store, p: Payload, parse: TimestampParser): (r: IngestResult)
    ensures p.stationId.None? ==> r == IngestResult(s, BadRequest(MissingStationId))
    ensures p.stationId.Some? && p.timestamp.None? ==> r == IngestResult(s, BadRequest(MissingTimestamp))
    ensures r.response.BadRequest? ==> SameReadings(r.store, s)
    ensures r.store.stations == s.stations
            || (p.stationId.Some? && p.stationId.value !in s.stations
                && r.store.stations == s.stations[p.stationId.value := NewStation(p.stationId.value, p)])
    ensures p.stationId.Some? && p.stationId.value in s.stations ==> r.store.stations == s.stations
    ensures r.response.Created? ==> p.stationId == Some(r.response.stationId)
                                    && p.timestamp.Some? && parse(p.timestamp.value) == Some(r.response.timestamp)
    // Accepted exactly when both keys are present, the station exists or can be
    // stored, the timestamp parses, and every present group can be stored.
    ensures r.response.Created? <==>
      && p.stationId.Some? && p.timestamp.Some?
      && (p.stationId.value in s.stations || StationFits(NewStation(p.stationId.value, p)))
      && parse(p.timestamp.value).Some?
      && SensorsFit(p.sensors.GetOr(NoSensors))
  {
    if p.stationId.None? then IngestResult(s, BadRequest(MissingStationId))
    else if p.timestamp.None? then IngestResult(s, BadRequest(MissingTimestamp))
    else
      var id := p.stationId.value;
      if id !in s.stations && !StationFits(NewStation(id, p)) then
        IngestResult(s, BadRequest(StoreError))
      else
        var withStation := if id in s.stations then s else s.(stations := s.stations[id := NewStation(id, p)]);
        match parse(p.timestamp.value)
        case None => IngestResult(withStation, BadRequest(InvalidTimestamp))
        case Some(ts) =>
          var sp := p.sensors.GetOr(NoSensors);
          if !SensorsFit(sp) then IngestResult(withStation, BadRequest(StoreError))
          else IngestResult(WriteReadings(withStation, id, ts, sp), Created(id, ts))
  }

  // ---------------------------------------------------------------------
  // GET /api/v1/stations/<station_id>/data

  datatype Metric = Metric(value: real, isDangerous: bool)
  datatype Count = Count(value: int, isDangerous: bool)
  /** A boolean JSON field; `None` is a JSON null. */
  datatype Flag = Flag(value: Option<bool>, isDangerous: bool)

  datatype LocationView = LocationView(latitude: real, longitude: real, altitude: int, trailName: string)

  datatype StationView = StationView(
    stationId: StationId,
    timestamp: Timestamp,
    location: LocationView,
    temperature: Metric,
    humidity: Metric,
    pressure: Metric,
    uvIndex: Metric,
    lux: Count,
    moisturePercent: Metric,
    co2Ppm: Count,
    isRaining: Flag,
    rainDetectedLastHour: Flag,
    motionCount: Count,
    periodMinutes: int)

  datatype StationResponse = Found(view: StationView) | NotFound(stationId: StationId) {
    function Status(): int {
      if Found? then 200 else 404
    }
  }

  /** The values of the station's newest row in a table, if it has one. */
  function LatestValues<V>(t: Table<V>, id: StationId): (r: Option<V>)
    ensures r.None? <==> !HasStation(t, id)
  {
    match Latest(t, id)
    case None => None
    case Some(row) => Some(row.values)
  }

  /** `float(x) if reading and reading.x else 0.0`: a missing or zero value reads as 0.0. */
  function RealOrZero(v: Option<real>): real {
    if v.Some? && v.value != 0.0 then v.value else 0.0
  }

  /** `x if reading and reading.x else 0`. */
  function IntOrZero(v: Option<int>): int {
    if v.Some? && v.value != 0 then v.value else 0
  }

  /** A field of an optional row: `None` when the row or the value is missing. */
  function Field<V, F>(row: Option<V>, get: V -> Option<F>): Option<F> {
    if row.Some? then get(row.value) else None
  }

  /** The default period is 60 minutes; a zero period is falsy and also reads as 60. */
  const DefaultPeriodMinutes: int := 60

  function PeriodOrDefault(v: Option<int>): int {
    if v.Some? && v.value != 0 then v.value else DefaultPeriodMinutes
  }

  /**
   * The precipitation flags, guarded by the row and by the value
   * (`precipitation.is_raining if precipitation and precipitation.is_raining else False`).
   */
  function RainFlag(row: Option<Precipitation>, get: Precipitation -> Option<bool>): (b: bool)
    ensures b <==> row.Some? && get(row.value) == Some(true)
  {
    row.Some? && get(row.value).Some? && get(row.value).value
  }

  /**
   * The precipitation flags as the handler writes them
   * (`precipitation.is_raining if precipitation else False`): an existing
   * row with a null flag yields `None`, a JSON null.
   */
  function RainFlagAsWritten(row: Option<Precipitation>, get: Precipitation -> Option<bool>): (b: Option<bool>)
    ensures row.None? ==> b == Some(false)
    ensures row.Some? ==> b == get(row.value)
  {
    if row.Some? then get(row.value) else Some(false)
  }

  function IsRainingOf(p: Precipitation): Option<bool> { p.isRaining }
  function RainedRecentlyOf(p: Precipitation): Option<bool> { p.rainDetectedLastHour }

  /** The response body for a known station, read through the station's reverse relations. */
  function BuildView(s: Store, id: StationId, st: Station, now: Timestamp): StationView {
    var atmo := LatestValues(s.atmospheric, id);
    var light := LatestValues(s.light, id);
    var soil := LatestValues(s.soil, id);
    var air := LatestValues(s.airQuality, id);
    var precip := LatestValues(s.precipitation, id);
    var activity := LatestValues(s.trailActivity, id);
    StationView(
      st.stationId,
      now,
      LocationView(st.latitude, st.longitude, st.altitude, if st.trailName != "" then st.trailName else st.name),
      Metric(RealOrZero(Field(atmo, (a: Atmospheric) => a.temperature)), false),
      Metric(RealOrZero(Field(atmo, (a: Atmospheric) => a.humidity)), false),
      Metric(RealOrZero(Field(atmo, (a: Atmospheric) => a.pressure)), false),
      Metric(RealOrZero(Field(light, (l: Light) => l.uvIndex)), false),
      Count(IntOrZero(Field(light, (l: Light) => l.lux)), false),
      Metric(RealOrZero(Field(soil, (x: Soil) => x.moisturePercent)), false),
      Count(IntOrZero(Field(air, (a: AirQuality) => a.co2Ppm)), false),
      Flag(RainFlagAsWritten(precip, IsRainingOf), false),
      Flag(RainFlagAsWritten(precip, RainedRecentlyOf), false),
      Count(IntOrZero(Field(activity, (t: TrailActivity) => t.motionCount)), false),
      PeriodOrDefault(Field(activity, (t: TrailActivity) => t.periodMinutes)))
  }

  predicate NoDangerFlags(v: StationView) {
    && !v.temperature.isDangerous && !v.humidity.isDangerous && !v.pressure.isDangerous
    && !v.uvIndex.isDangerous && !v.lux.isDangerous && !v.moisturePercent.isDangerous
    && !v.co2Ppm.isDangerous && !v.isRaining.isDangerous && !v.rainDetectedLastHour.isDangerous
    && !v.motionCount.isDangerous
  }

  /**
   * `GET /api/v1/stations/<station_id>/data` at server time `now`, as the
   * handler is written: 404 for an unknown station, otherwise the station's
   * location and the newest reading of every group, a missing or zero value
   * as 0, a missing period as 60 minutes, and the precipitation flags copied
   * from the newest row even when they are null.
   */
  function GetStationData(s: Store, id: StationId, now: Timestamp): (r: StationResponse)
    ensures r.NotFound? <==> id !in s.stations
    ensures r.Found? ==> r.view.stationId == s.stations[id].stationId && r.view.timestamp == now
    ensures r.Found? ==> NoDangerFlags(r.view)
    ensures r.Found? ==>
      var st := s.stations[id];
      && r.view.location.latitude == st.latitude && r.view.location.longitude == st.longitude
      && r.view.location.altitude == st.altitude
      && r.view.location.trailName == (if st.trailName == "" then st.name else st.trailName)
    // Groups with a reading report the newest row's values.
    ensures r.Found? && LatestValues(s.atmospheric, id).Some? ==>
      var a := LatestValues(s.atmospheric, id).value;
      && r.view.temperature.value == a.temperature.GetOr(0.0)
      && r.view.humidity.value == a.humidity.GetOr(0.0)
      && r.view.pressure.value == a.pressure.GetOr(0.0)
    ensures r.Found? && LatestValues(s.light, id).Some? ==>
      var l := LatestValues(s.light, id).value;
      r.view.uvIndex.value == l.uvIndex.GetOr(0.0) && r.view.lux.value == l.lux.GetOr(0)
    ensures r.Found? && LatestValues(s.soil, id).Some? ==>
      r.view.moisturePercent.value == LatestValues(s.soil, id).value.moisturePercent.GetOr(0.0)
    ensures r.Found? && LatestValues(s.airQuality, id).Some? ==>
      r.view.co2Ppm.value == LatestValues(s.airQuality, id).value.co2Ppm.GetOr(0)
    ensures r.Found? && LatestValues(s.precipitation, id).Some? ==>
      var pr := LatestValues(s.precipitation, id).value;
      r.view.isRaining.value == pr.isRaining && r.view.rainDetectedLastHour.value == pr.rainDetectedLastHour
    ensures r.Found? && LatestValues(s.trailActivity, id).Some? ==>
      var t := LatestValues(s.trailActivity, id).value;
      && r.view.motionCount.value == t.motionCount.GetOr(0)
      && (t.periodMinutes.Some? && t.periodMinutes.value != 0 ==> r.view.periodMinutes == t.periodMinutes.value)
      && (t.periodMinutes.None? || t.periodMinutes == Some(0) ==> r.view.periodMinutes == DefaultPeriodMinutes)
    // Groups without a reading report the defaults.
    ensures r.Found? && !HasStation(s.atmospheric, id) ==>
              r.view.temperature.value == 0.0 && r.view.humidity.value == 0.0 && r.view.pressure.value == 0.0
    ensures r.Found? && !HasStation(s.light, id) ==> r.view.uvIndex.value == 0.0 && r.view.lux.value == 0
    ensures r.Found? && !HasStation(s.soil, id) ==> r.view.moisturePercent.value == 0.0
    ensures r.Found? && !HasStation(s.airQuality, id) ==> r.view.co2Ppm.value == 0
    ensures r.Found? && !HasStation(s.trailActivity, id) ==> r.view.motionCount.value == 0 && r.view.periodMinutes == 60
    ensures r.Found? && !HasStation(s.precipitation, id) ==>
              r.view.isRaining.value == Some(false) && r.view.rainDetectedLastHour.value == Some(false)
  {
    if id !in s.stations then NotFound(id) else Found(BuildView(s, id, s.stations[id], now))
  }

  /**
   * The same handler with the precipitation flags null-guarded like every
   * other field (`... if precipitation and precipitation.is_raining else False`),
   * so that the body always decodes into the client's `Bool` fields.
   */
  function GetStationDataGuarded(s: Store, id: StationId, now: Timestamp): (r: StationResponse)
    ensures r.NotFound? <==> id !in s.stations
    ensures r.Found? ==> r.view.isRaining.value.Some? && r.view.rainDetectedLastHour.value.Some?
    ensures r.Found? ==>
      var latest := LatestValues(s.precipitation, id);
      && (r.view.isRaining.value == Some(true) <==> latest.Some? && latest.value.isRaining == Some(true))
      && (r.view.rainDetectedLastHour.value == Some(true)
          <==> latest.Some? && latest.value.rainDetectedLastHour == Some(true))
    // Everything else is the handler as written, and a non-null flag is unchanged.
    ensures r.Found? ==>
      var g := GetStationData(s, id, now).view;
      && r.view.(isRaining := g.isRaining, rainDetectedLastHour := g.rainDetectedLastHour) == g
      && (g.isRaining.value.Some? ==> r.view.isRaining == g.isRaining)
      && (g.rainDetectedLastHour.value.Some? ==> r.view.rainDetectedLastHour == g.rainDetectedLastHour)
  {
    match GetStationData(s, id, now)
    case NotFound(_) => NotFound(id)
    case Found(v) =>
      var precip := LatestValues(s.precipitation, id);
      Found(v.(isRaining := Flag(Some(RainFlag(precip, IsRainingOf)), false),
               rainDetectedLastHour := Flag(Some(RainFlag(precip, RainedRecentlyOf)), false)))
  }
}

=== FILE: sensor_api_properties.dfy ===
/**
 * Properties of the sensor endpoints: the store's integrity constraints
 * survive every POST, a POST writes exactly its present groups, reposting
 * overwrites instead of duplicating, and a GET after a POST of the newest
 * readings reports what was posted.
 */
module SensorApiProperties {

  import opened Wrappers
  import opened ReadingTable
  import opened SensorStore
  import opened SensorApi

  /** The effect of one present or absent group on its table's contents. */
  function ContentsAfter<V>(t: Table<V>, id: StationId, ts: Timestamp, group: Option<V>): map<Key, V> {
    if group.Some? then Contents(t)[Key(id, ts) := group.value] else Contents(t)
  }

  lemma UpsertIfPresentSpec<V>(t: Table<V>, stations: map<StationId, Station>, id: StationId, ts: Timestamp,
                               group: Option<V>, fits: V -> bool)
    requires WellFormed(t) && RowsReferTo(t, stations) && id in stations
    requires forall x :: x in t ==> fits(x.values)
    requires group.Some? ==> fits(group.value)
    ensures var r := UpsertIfPresent(t, id, ts, group);
      && WellFormed(r) && RowsReferTo(r, stations) && (forall x :: x in r ==> fits(x.values))
      && Contents(r) == ContentsAfter(t, id, ts, group)
  {
    if group.Some? {
      UpsertWellFormed(t, Row(id, ts, group.value));
      UpsertContents(t, Row(id, ts, group.value));
    }
  }

  function AlwaysFits<V>(v: V): bool { true }

  lemma AddStationKeepsForeignKeys<V>(t: Table<V>, stations: map<StationId, Station>, id: StationId, st: Station)
    requires RowsReferTo(t, stations)
    ensures RowsReferTo(t, stations[id := st])
  {
  }

  /** Creating a station keeps the store valid. */
  lemma AddStationValid(s: Store, id: StationId, st: Station)
    requires Valid(s) && st.stationId == id && StationFits(st)
    ensures Valid(s.(stations := s.stations[id := st]))
  {
    var m := s.stations[id := st];
    AddStationKeepsForeignKeys(s.atmospheric, s.stations, id, st);
    AddStationKeepsForeignKeys(s.light, s.stations, id, st);
    AddStationKeepsForeignKeys(s.soil, s.stations, id, st);
    AddStationKeepsForeignKeys(s.airQuality, s.stations, id, st);
    AddStationKeepsForeignKeys(s.precipitation, s.stations, id, st);
    AddStationKeepsForeignKeys(s.trailActivity, s.stations, id, st);
  }

  /** The readings written by a successful POST, table by table. */
  lemma WriteReadingsSpec(s: Store, id: StationId, ts: Timestamp, sp: SensorsPayload)
    requires Valid(s) && id in s.stations && SensorsFit(sp)
    ensures var r := WriteReadings(s, id, ts, sp);
      && Valid(r)
      && Contents(r.atmospheric) == ContentsAfter(s.atmospheric, id, ts, sp.atmospheric)
      && Contents(r.light) == ContentsAfter(s.light, id, ts, sp.light)
      && Contents(r.soil) == ContentsAfter(s.soil, id, ts, sp.soil)
      && Contents(r.airQuality) == ContentsAfter(s.airQuality, id, ts, sp.airQuality)
      && Contents(r.precipitation) == ContentsAfter(s.precipitation, id, ts, sp.precipitation)
      && Contents(r.trailActivity) == ContentsAfter(s.trailActivity, id, ts, sp.trailActivity)
  {
    UpsertIfPresentSpec(s.atmospheric, s.stations, id, ts, sp.atmospheric, AtmosphericFits);
    UpsertIfPresentSpec(s.light, s.stations, id, ts, sp.light, LightFits);
    UpsertIfPresentSpec(s.soil, s.stations, id, ts, sp.soil, SoilFits);
    UpsertIfPresentSpec(s.airQuality, s.stations, id, ts, sp.airQuality, AirQualityFits);
    UpsertIfPresentSpec(s.precipitation, s.stations, id, ts, sp.precipitation, AlwaysFits);
    UpsertIfPresentSpec(s.trailActivity, s.stations, id, ts, sp.trailActivity, TrailActivityFits);
  }

  /** Every POST, accepted or rejected, leaves the store's constraints intact. */
  lemma ReceivePreservesValid(s: Store, p: Payload, parse: TimestampParser)
    requires Valid(s)
    ensures Valid(ReceiveSensorData(s, p, parse).store)
  {
    if p.stationId.Some? && p.timestamp.Some? {
      var id := p.stationId.value;
      if id in s.stations || StationFits(NewStation(id, p)) {
        var withStation := if id in s.stations then s else s.(stations := s.stations[id := NewStation(id, p)]);
        if id !in s.stations {
          AddStationValid(s, id, NewStation(id, p));
        }
        match parse(p.timestamp.value)
        case None =>
        case Some(ts) =>
          var sp := p.sensors.GetOr(NoSensors);
          if SensorsFit(sp) {
            WriteReadingsSpec(withStation, id, ts, sp);
          }
      }
    }
  }

  /**
   * The station is created before the timestamp is parsed: an unparseable
   * timestamp is rejected with 400 but the new station stays, with no readings.
   */
  lemma UnparseableTimestampKeepsNewStation(s: Store, p: Payload, parse: TimestampParser)
    requires p.stationId.Some? && p.timestamp.Some? && parse(p.timestamp.value).None?
    requires p.stationId.value !in s.stations && StationFits(NewStation(p.stationId.value, p))
    ensures var r := ReceiveSensorData(s, p, parse);
      && r.response == BadRequest(InvalidTimestamp) && r.response.Status() == 400
      && r.store.stations == s.stations[p.stationId.value := NewStation(p.stationId.value, p)]
      && SameReadings(r.store, s)
  {
  }

  /**
   * An accepted POST writes exactly the groups it carries, each as an
   * upsert on `(station, timestamp)`; a payload without a sensors block is
   * still accepted and writes nothing.
   */
  lemma AcceptedPostWritesPresentGroups(s: Store, p: Payload, parse: TimestampParser)
    requires Valid(s)
    requires ReceiveSensorData(s, p, parse).response.Created?
    ensures var r := ReceiveSensorData(s, p, parse);
      var id := r.response.stationId;
      var ts := r.response.timestamp;
      var sp := p.sensors.GetOr(NoSensors);
      && r.response.Status() == 201
      && Contents(r.store.atmospheric) == ContentsAfter(s.atmospheric, id, ts, sp.atmospheric)
      && Contents(r.store.light) == ContentsAfter(s.light, id, ts, sp.light)
      && Contents(r.store.soil) == ContentsAfter(s.soil, id, ts, sp.soil)
      && Contents(r.store.airQuality) == ContentsAfter(s.airQuality, id, ts, sp.airQuality)
      && Contents(r.store.precipitation) == ContentsAfter(s.precipitation, id, ts, sp.precipitation)
      && Contents(r.store.trailActivity) == ContentsAfter(s.trailActivity, id, ts, sp.trailActivity)
      && (p.sensors.None? ==> SameReadings(r.store, s))
  {
    var id := p.stationId.value;
    var withStation := if id in s.stations then s else s.(stations := s.stations[id := NewStation(id, p)]);
    if id !in s.stations {
      AddStationValid(s, id, NewStation(id, p));
    }
    WriteReadingsSpec(withStation, id, parse(p.timestamp.value).value, p.sensors.GetOr(NoSensors));
  }

  /**
   * A POST without a sensors block is accepted with 201 whenever its
   * station and timestamp are usable, and it writes no reading.
   */
  lemma PostWithoutSensorsIsAccepted(s: Store, p: Payload, parse: TimestampParser)
    requires p.stationId.Some? && p.timestamp.Some? && parse(p.timestamp.value).Some?
    requires p.stationId.value in s.stations || StationFits(NewStation(p.stationId.value, p))
    requires p.sensors.None?
    ensures var r := ReceiveSensorData(s, p, parse);
      && r.response == Created(p.stationId.value, parse(p.timestamp.value).value)
      && r.response.Status() == 201
      && SameReadings(r.store, s)
  {
    assert SensorsFit(NoSensors);
  }

  /**
   * Posting the same document twice stores nothing more than posting it
   * once: the second upserts overwrite the first's rows.
   */
  lemma RepostIsIdempotent(s: Store, p: Payload, parse: TimestampParser)
    requires Valid(s)
    ensures var once := ReceiveSensorData(s, p, parse);
      var twice := ReceiveSensorData(once.store, p, parse);
      && twice.response == once.response
      && twice.store.stations == once.store.stations
      && Contents(twice.store.atmospheric) == Contents(once.store.atmospheric)
      && Contents(twice.store.light) == Contents(once.store.light)
      && Contents(twice.store.soil) == Contents(once.store.soil)
      && Contents(twice.store.airQuality) == Contents(once.store.airQuality)
      && Contents(twice.store.precipitation) == Contents(once.store.precipitation)
      && Contents(twice.store.trailActivity) == Contents(once.store.trailActivity)
  {
    var once := ReceiveSensorData(s, p, parse);
    ReceivePreservesValid(s, p, parse);
    if once.response.Created? {
      var id := once.response.stationId;
      var ts := once.response.timestamp;
      var sp := p.sensors.GetOr(NoSensors);
      assert id in once.store.stations;
      assert ReceiveSensorData(once.store, p, parse) == IngestResult(WriteReadings(once.store, id, ts, sp), Created(id, ts));
      AcceptedPostWritesPresentGroups(s, p, parse);
      AcceptedPostWritesPresentGroups(once.store, p, parse);
      RewriteSameValue(s.atmospheric, once.store.atmospheric, id, ts, sp.atmospheric);
      RewriteSameValue(s.light, once.store.light, id, ts, sp.light);
      RewriteSameValue(s.soil, once.store.soil, id, ts, sp.soil);
      RewriteSameValue(s.airQuality, once.store.airQuality, id, ts, sp.airQuality);
      RewriteSameValue(s.precipitation, once.store.precipitation, id, ts, sp.precipitation);
      RewriteSameValue(s.trailActivity, once.store.trailActivity, id, ts, sp.trailActivity);
    }
  }

  /** Writing a key again with the value it already holds changes nothing. */
  lemma RewriteSameValue<V>(before: Table<V>, after: Table<V>, id: StationId, ts: Timestamp, group: Option<V>)
    requires Contents(after) == ContentsAfter(before, id, ts, group)
    ensures ContentsAfter(after, id, ts, group) == Contents(after)
  {
  }

  /** No reading of the station in `t` is newer than `ts`. */
  ghost predicate NewestFor<V>(t: Table<V>, id: StationId, ts: Timestamp) {
    forall x :: x in t && x.station == id ==> x.timestamp <= ts
  }

  lemma UpsertIfPresentLatest<V>(t: Table<V>, id: StationId, ts: Timestamp, v: V)
    requires WellFormed(t) && NewestFor(t, id, ts)
    ensures LatestValues(UpsertIfPresent(t, id, ts, Some(v)), id) == Some(v)
  {
    UpsertNewestIsLatest(t, Row(id, ts, v));
  }

  /** The handler as written reports the values of `sp`'s present groups. */
  predicate ReadsBack(g: StationResponse, sp: SensorsPayload) {
    && g.Found? && g.Status() == 200 && NoDangerFlags(g.view)
    && (sp.atmospheric.Some? ==>
          && g.view.temperature.value == sp.atmospheric.value.temperature.GetOr(0.0)
          && g.view.humidity.value == sp.atmospheric.value.humidity.GetOr(0.0)
          && g.view.pressure.value == sp.atmospheric.value.pressure.GetOr(0.0))
    && (sp.light.Some? ==>
          && g.view.uvIndex.value == sp.light.value.uvIndex.GetOr(0.0)
          && g.view.lux.value == sp.light.value.lux.GetOr(0))
    && (sp.soil.Some? ==> g.view.moisturePercent.value == sp.soil.value.moisturePercent.GetOr(0.0))
    && (sp.airQuality.Some? ==> g.view.co2Ppm.value == sp.airQuality.value.co2Ppm.GetOr(0))
    && (sp.trailActivity.Some? ==>
          && g.view.motionCount.value == sp.trailActivity.value.motionCount.GetOr(0)
          && (sp.trailActivity.value.periodMinutes.Some? && sp.trailActivity.value.periodMinutes.value != 0 ==>
                g.view.periodMinutes == sp.trailActivity.value.periodMinutes.value))
    && (sp.precipitation.Some? ==>
          && g.view.isRaining.value == sp.precipitation.value.isRaining
          && g.view.rainDetectedLastHour.value == sp.precipitation.value.rainDetectedLastHour)
  }

  /** The guarded handler reports a posted rain flag as `posted == true`. */
  predicate ReadsBackGuarded(g: StationResponse, sp: SensorsPayload) {
    sp.precipitation.Some? ==>
      && g.Found?
      && g.view.isRaining.value == Some(sp.precipitation.value.isRaining == Some(true))
      && g.view.rainDetectedLastHour.value == Some(sp.precipitation.value.rainDetectedLastHour == Some(true))
  }

  /** No table of the store holds a reading of the station newer than `ts`. */
  ghost predicate NewestEverywhere(s: Store, id: StationId, ts: Timestamp) {
    && NewestFor(s.atmospheric, id, ts) && NewestFor(s.light, id, ts) && NewestFor(s.soil, id, ts)
    && NewestFor(s.airQuality, id, ts) && NewestFor(s.precipitation, id, ts) && NewestFor(s.trailActivity, id, ts)
  }

  /** Reading back the transaction's writes when they are the station's newest. */
  lemma ReadBackAfterWrite(w: Store, id: StationId, ts: Timestamp, sp: SensorsPayload, now: Timestamp)
    requires id in w.stations && Valid(w) && NewestEverywhere(w, id, ts)
    ensures ReadsBack(GetStationData(WriteReadings(w, id, ts, sp), id, now), sp)
    ensures ReadsBackGuarded(GetStationDataGuarded(WriteReadings(w, id, ts, sp), id, now), sp)
  {
    if sp.atmospheric.Some? {
      UpsertIfPresentLatest(w.atmospheric, id, ts, sp.atmospheric.value);
    }
    if sp.light.Some? {
      UpsertIfPresentLatest(w.light, id, ts, sp.light.value);
    }
    if sp.soil.Some? {
      UpsertIfPresentLatest(w.soil, id, ts, sp.soil.value);
    }
    if sp.airQuality.Some? {
      UpsertIfPresentLatest(w.airQuality, id, ts, sp.airQuality.value);
    }
    if sp.precipitation.Some? {
      UpsertIfPresentLatest(w.precipitation, id, ts, sp.precipitation.value);
    }
    if sp.trailActivity.Some? {
      UpsertIfPresentLatest(w.trailActivity, id, ts, sp.trailActivity.value);
    }
  }

  /**
   * A GET after an accepted POST whose timestamp is the station's newest
   * reports the posted values, a missing value as zero, and no danger flags.
   * As written, a posted null rain flag comes back null; with the guard it
   * comes back `false`.
   */
  lemma GetAfterPostReportsPostedValues(s: Store, p: Payload, parse: TimestampParser, now: Timestamp)
    requires Valid(s)
    requires ReceiveSensorData(s, p, parse).response.Created?
    requires var r := ReceiveSensorData(s, p, parse).response;
      NewestEverywhere(s, r.stationId, r.timestamp)
    ensures var r := ReceiveSensorData(s, p, parse);
      ReadsBack(GetStationData(r.store, r.response.stationId, now), p.sensors.GetOr(NoSensors))
    ensures var r := ReceiveSensorData(s, p, parse);
      ReadsBackGuarded(GetStationDataGuarded(r.store, r.response.stationId, now), p.sensors.GetOr(NoSensors))
  {
    var id := p.stationId.value;
    var ts := parse(p.timestamp.value).value;
    var sp := p.sensors.GetOr(NoSensors);
    var withStation := if id in s.stations then s else s.(stations := s.stations[id := NewStation(id, p)]);
    if id !in s.stations {
      AddStationValid(s, id, NewStation(id, p));
    }
    assert ReceiveSensorData(s, p, parse) == IngestResult(WriteReadings(withStation, id, ts, sp), Created(id, ts));
    ReadBackAfterWrite(withStation, id, ts, sp, now);
  }

  // ---------------------------------------------------------------------
  // The precipitation flags of the GET response.

  const RainStation: StationId := "station"

  /** A POST whose precipitation group carries neither flag. */
  const FlaglessPost := Payload(Some(RainStation), Some("2024-11-22T14:30:00Z"), None, None,
                                Some(NoSensors.(precipitation := Some(Precipitation(None, None)))))

  function ParseAtZero(text: string): Option<Timestamp> { Some(0) }

  /**
   * As written, the handler reads `is_raining` from the newest precipitation
   * row without a null guard: after a POST of `"precipitation": {}` the GET
   * body carries `"is_raining": null`, which the client's non-optional
   * `Bool` cannot decode.
   */
  lemma RainFlagAsWrittenLeaksNull(now: Timestamp)
    ensures var r := ReceiveSensorData(EmptyStore, FlaglessPost, ParseAtZero);
      var g := GetStationData(r.store, RainStation, now);
      && r.response.Created? && g.Found?
      && g.view.isRaining.value.None? && g.view.rainDetectedLastHour.value.None?
  {
    var r := ReceiveSensorData(EmptyStore, FlaglessPost, ParseAtZero);
    var row := Row(RainStation, 0, Precipitation(None, None));
    assert r.store.precipitation == [row];
    assert Latest(r.store.precipitation, RainStation) == Some(row);
  }

  /**
   * With the null guard, every response for a known station carries boolean
   * rain flags, and the same POST reads back as `false`.
   */
  lemma RainFlagIsAlwaysBoolean(s: Store, id: StationId, now: Timestamp)
    requires id in s.stations
    ensures var g := GetStationDataGuarded(s, id, now);
      g.Found? && g.view.isRaining.value.Some? && g.view.rainDetectedLastHour.value.Some?
    ensures var r := ReceiveSensorData(EmptyStore, FlaglessPost, ParseAtZero);
      var g := GetStationDataGuarded(r.store, RainStation, now);
      g.view.isRaining.value == Some(false) && g.view.rainDetectedLastHour.value == Some(false)
  {
    var r := ReceiveSensorData(EmptyStore, FlaglessPost, ParseAtZero);
    var row := Row(RainStation, 0, Precipitation(None, None));
    assert r.store.precipitation == [row];
    assert Latest(r.store.precipitation, RainStation) == Some(row);
  }
}

=== FILE: sensor_store.dfy ===
/**
 * The backend's relational store: the station table and the six reading
 * tables, with the column constraints a database enforces on them
 * (character-field lengths, decimal precision, 32-bit integers), the
 * foreign key from every reading to its station, and the cascade on delete.
 */
module SensorStore {

  import opened Wrappers
  import opened ReadingTable

  /** Station metadata; `station_id` is the primary key. */
  datatype Station = Station(
    stationId: StationId,
    name: string,
    latitude: real,
    longitude: real,
    altitude: int,
    trailName: string)

  // The values of one reading row per table; every sensor column is nullable.
  datatype Atmospheric = Atmospheric(temperature: Option<real>, humidity: Option<real>, pressure: Option<real>)
  datatype Light = Light(uvIndex: Option<real>, lux: Option<int>)
  datatype Soil = Soil(moisturePercent: Option<real>)
  datatype AirQuality = AirQuality(co2Ppm: Option<int>)
  datatype Precipitation = Precipitation(isRaining: Option<bool>, rainDetectedLastHour: Option<bool>)
  datatype TrailActivity = TrailActivity(motionCount: Option<int>, periodMinutes: Option<int>)

  datatype Store = Store(
    stations: map<StationId, Station>,
    atmospheric: Table<Atmospheric>,
    light: Table<Light>,
    soil: Table<Soil>,
    airQuality: Table<AirQuality>,
    precipitation: Table<Precipitation>,
    trailActivity: Table<TrailActivity>)

  const EmptyStore := Store(map[], [], [], [], [], [], [])

  // ---------------------------------------------------------------------
  // Column constraints.

  function Pow10(n: nat): (p: nat)
    ensures p >= 1
  {
    if n == 0 then 1 else 10 * Pow10(n - 1)
  }

  /** A `DecimalField(max_digits, decimal_places)` holds magnitudes below 10^(digits - places). */
  predicate FitsDecimal(v: real, maxDigits: nat, decimalPlaces: nat)
    requires decimalPlaces <= maxDigits
  {
    var bound := Pow10(maxDigits - decimalPlaces) as real;
    -bound < v < bound
  }

  predicate FitsOptDecimal(v: Option<real>, maxDigits: nat, decimalPlaces: nat)
    requires decimalPlaces <= maxDigits
  {
    v.None? || FitsDecimal(v.value, maxDigits, decimalPlaces)
  }

  /** An `IntegerField` is a 32-bit signed column. */
  predicate FitsInteger(v: int) {
    -0x8000_0000 <= v < 0x8000_0000
  }

  predicate FitsOptInteger(v: Option<int>) {
    v.None? || FitsInteger(v.value)
  }

  predicate StationFits(s: Station) {
    && |s.stationId| <= 50
    && |s.name| <= 200
    && FitsDecimal(s.latitude, 9, 6)
    && FitsDecimal(s.longitude, 9, 6)
    && FitsInteger(s.altitude)
    && |s.trailName| <= 200
  }

  predicate AtmosphericFits(a: Atmospheric) {
    FitsOptDecimal(a.temperature, 5, 2) && FitsOptDecimal(a.humidity, 5, 2) && FitsOptDecimal(a.pressure, 6, 2)
  }

  predicate LightFits(l: Light) {
    FitsOptDecimal(l.uvIndex, 4, 2) && FitsOptInteger(l.lux)
  }

  predicate SoilFits(s: Soil) {
    FitsOptDecimal(s.moisturePercent, 5, 2)
  }

  predicate AirQualityFits(a: AirQuality) {
    FitsOptInteger(a.co2Ppm)
  }

  predicate TrailActivityFits(t: TrailActivity) {
    FitsOptInteger(t.motionCount) && FitsOptInteger(t.periodMinutes)
  }

  /** Every row of a table refers to a known station (the foreign key). */
  predicate RowsReferTo<V(==)>(t: Table<V>, stations: map<StationId, Station>) {
    forall x :: x in t ==> x.station in stations
  }

  /** The database's integrity constraints over the whole store. */
  predicate Valid(s: Store) {
    && (forall id :: id in s.stations ==> s.stations[id].stationId == id && StationFits(s.stations[id]))
    && WellFormed(s.atmospheric) && RowsReferTo(s.atmospheric, s.stations)
    && (forall x :: x in s.atmospheric ==> AtmosphericFits(x.values))
    && WellFormed(s.light) && RowsReferTo(s.light, s.stations)
    && (forall x :: x in s.light ==> LightFits(x.values))
    && WellFormed(s.soil) && RowsReferTo(s.soil, s.stations)
    && (forall x :: x in s.soil ==> SoilFits(x.values))
    && WellFormed(s.airQuality) && RowsReferTo(s.airQuality, s.stations)
    && (forall x :: x in s.airQuality ==> AirQualityFits(x.values))
    && WellFormed(s.precipitation) && RowsReferTo(s.precipitation, s.stations)
    && WellFormed(s.trailActivity) && RowsReferTo(s.trailActivity, s.stations)
    && (forall x :: x in s.trailActivity ==> TrailActivityFits(x.values))
  }

  /**
   * The numeric bounds the decimal columns impose on stored readings:
   * temperature, humidity and soil moisture below 1000 in magnitude,
   * pressure below 10000, UV index below 100.
   */
  lemma StoredReadingsWithinColumnBounds(s: Store)
    requires Valid(s)
    ensures forall x :: x in s.atmospheric && x.values.temperature.Some? ==> -1000.0 < x.values.temperature.value < 1000.0
    ensures forall x :: x in s.atmospheric && x.values.humidity.Some? ==> -1000.0 < x.values.humidity.value < 1000.0
    ensures forall x :: x in s.atmospheric && x.values.pressure.Some? ==> -10000.0 < x.values.pressure.value < 10000.0
    ensures forall x :: x in s.light && x.values.uvIndex.Some? ==> -100.0 < x.values.uvIndex.value < 100.0
    ensures forall x :: x in s.soil && x.values.moisturePercent.Some? ==> -1000.0 < x.values.moisturePercent.value < 1000.0
  {
    assert Pow10(3) == 1000 && Pow10(4) == 10000 && Pow10(2) == 100;
  }

  /** Every reading of the station, in all six tables. */
  predicate HasReadings(s: Store, id: StationId) {
    || HasStation(s.atmospheric, id) || HasStation(s.light, id) || HasStation(s.soil, id)
    || HasStation(s.airQuality, id) || HasStation(s.precipitation, id) || HasStation(s.trailActivity, id)
  }

  /** Deleting a station deletes its readings in all six tables (`on_delete=CASCADE`). */
  function DeleteStationCascade(s: Store, id: StationId): (r: Store)
    ensures r.stations == s.stations - {id}
    ensures id !in r.stations
    ensures forall other :: other in s.stations && other != id ==> other in r.stations && r.stations[other] == s.stations[other]
  {
    Store(
      s.stations - {id},
      DeleteStation(s.atmospheric, id),
      DeleteStation(s.light, id),
      DeleteStation(s.soil, id),
      DeleteStation(s.airQuality, id),
      DeleteStation(s.precipitation, id),
      DeleteStation(s.trailActivity, id))
  }

  lemma DeleteKeepsForeignKeys<V>(t: Table<V>, stations: map<StationId, Station>, id: StationId)
    requires WellFormed(t) && RowsReferTo(t, stations)
    ensures WellFormed(DeleteStation(t, id)) && RowsReferTo(DeleteStation(t, id), stations - {id})
    ensures !HasStation(DeleteStation(t, id), id)
    ensures forall x :: x in t && x.station != id ==> x in DeleteStation(t, id)
  {
    DeleteStationSpec(t, id);
  }

  /**
   * The cascade leaves no reading of the deleted station, keeps every
   * reading of every other station, and keeps every constraint.
   */
  lemma DeleteStationCascadeSpec(s: Store, id: StationId)
    requires Valid(s)
    ensures Valid(DeleteStationCascade(s, id))
    ensures !HasReadings(DeleteStationCascade(s, id), id)
    ensures var r := DeleteStationCascade(s, id);
      && (forall x :: x in s.atmospheric && x.station != id ==> x in r.atmospheric)
      && (forall x :: x in s.light && x.station != id ==> x in r.light)
      && (forall x :: x in s.soil && x.station != id ==> x in r.soil)
      && (forall x :: x in s.airQuality && x.station != id ==> x in r.airQuality)
      && (forall x :: x in s.precipitation && x.station != id ==> x in r.precipitation)
      && (forall x :: x in s.trailActivity && x.station != id ==> x in r.trailActivity)
  {
    DeleteKeepsForeignKeys(s.atmospheric, s.stations, id);
    DeleteKeepsForeignKeys(s.light, s.stations, id);
    DeleteKeepsForeignKeys(s.soil, s.stations, id);
    DeleteKeepsForeignKeys(s.airQuality, s.stations, id);
    DeleteKeepsForeignKeys(s.precipitation, s.stations, id);
    DeleteKeepsForeignKeys(s.trailActivity, s.stations, id);
  }
}

=== FILE: token_hex.dfy ===
/**
 * The APNs device-token encoder of the iOS notification service: every byte
 * of the token becomes two lower-case hexadecimal digits, high nibble first,
 * and the digit pairs are joined in byte order (`String(format: "%02.2hhx")`
 * mapped over the bytes, then `joined()`).
 */
module TokenHex {

  import opened Wrappers

  type Byte = x: int | 0 <= x < 256

  const Digits: string := "0123456789abcdef"

  /** The characters the encoder may produce. */
  predicate IsHexChar(c: char) {
    ('0' <= c <= '9') || ('a' <= c <= 'f')
  }

  predicate IsHexString(s: string) {
    forall i :: 0 <= i < |s| ==> IsHexChar(s[i])
  }

  function HexDigit(n: int): (c: char)
    requires 0 <= n < 16
    ensures IsHexChar(c)
  {
    Digits[n]
  }

  /** Value of one lower-case hex digit; the inverse of `HexDigit`. */
  function DigitValue(c: char): (n: int)
    requires IsHexChar(c)
    ensures 0 <= n < 16
    ensures HexDigit(n) == c
  {
    if c <= '9' then c as int - '0' as int else c as int - 'a' as int + 10
  }

  lemma DigitValueOfHexDigit(n: int)
    requires 0 <= n < 16
    ensures DigitValue(HexDigit(n)) == n
  {
  }

  /** One byte as two digits, zero padded, high nibble first. */
  function EncodeByte(b: Byte): (s: string)
    ensures |s| == 2
    ensures IsHexChar(s[0]) && IsHexChar(s[1])
    ensures 16 * DigitValue(s[0]) + DigitValue(s[1]) == b
  {
    DigitValueOfHexDigit(b / 16);
    DigitValueOfHexDigit(b % 16);
    [HexDigit(b / 16), HexDigit(b % 16)]
  }

  /** The token string sent to the backend for a raw device token. */
  function Encode(bytes: seq<Byte>): (s: string)
    ensures |s| == 2 * |bytes|
    ensures IsHexString(s)
    ensures forall i :: 0 <= i < |bytes| ==> s[2 * i .. 2 * i + 2] == EncodeByte(bytes[i])
  {
    if |bytes| == 0 then ""
    else
      var rest := Encode(bytes[1..]);
      assert forall i :: 1 <= i < |bytes| ==> bytes[i] == bytes[1..][i - 1];
      EncodeByte(bytes[0]) + rest
  }

  /** Reads a token string back into bytes; `None` for odd length or a non-digit. */
  function Decode(s: string): (r: Option<seq<Byte>>)
    ensures r.Some? ==> |s| == 2 * |r.value|
  {
    if |s| == 0 then Some([])
    else if |s| == 1 || !IsHexChar(s[0]) || !IsHexChar(s[1]) then None
    else
      match Decode(s[2..])
      case None => None
      case Some(rest) => Some([16 * DigitValue(s[0]) + DigitValue(s[1])] + rest)
  }

  /** Encoding works byte by byte: it distributes over concatenation. */
  lemma {:induction false} EncodeAppend(a: seq<Byte>, b: seq<Byte>)
    ensures Encode(a + b) == Encode(a) + Encode(b)
  {
    if |a| == 0 {
      assert a + b == b;
    } else {
      assert (a + b)[1..] == a[1..] + b;
      EncodeAppend(a[1..], b);
    }
  }

  /** One step of decoding: the first two digits give the first byte. */
  lemma DecodeStep(s: string)
    requires |s| >= 2 && IsHexChar(s[0]) && IsHexChar(s[1]) && Decode(s[2..]).Some?
    ensures Decode(s) == Some([16 * DigitValue(s[0]) + DigitValue(s[1])] + Decode(s[2..]).value)
  {
  }

  /** Decoding a two-digit pair of value `b` in front of a decodable string. */
  lemma DecodeCons(b: Byte, pair: string, rest: string)
    requires |pair| == 2 && IsHexChar(pair[0]) && IsHexChar(pair[1])
    requires 16 * DigitValue(pair[0]) + DigitValue(pair[1]) == b
    requires Decode(rest).Some?
    ensures Decode(pair + rest) == Some([b] + Decode(rest).value)
  {
    var s := pair + rest;
    assert s[0] == pair[0] && s[1] == pair[1] && s[2..] == rest;
    DecodeStep(s);
  }

  /** Decoding recovers every token from its encoding. */
  lemma {:induction false} DecodeEncode(bytes: seq<Byte>)
    ensures Decode(Encode(bytes)) == Some(bytes)
  {
    if |bytes| > 0 {
      assert Encode(bytes) == EncodeByte(bytes[0]) + Encode(bytes[1..]);
      DecodeEncode(bytes[1..]);
      DecodeCons(bytes[0], EncodeByte(bytes[0]), Encode(bytes[1..]));
      assert [bytes[0]] + bytes[1..] == bytes;
    }
  }

  /** Every string that decodes is the encoding of what it decodes to. */
  lemma {:induction false} EncodeDecode(s: string)
    ensures Decode(s).Some? ==> Encode(Decode(s).value) == s
  {
    if |s| >= 2 && Decode(s).Some? {
      var rest := Decode(s[2..]).value;
      EncodeDecode(s[2..]);
      var b: Byte := 16 * DigitValue(s[0]) + DigitValue(s[1]);
      var bytes := [b] + rest;
      assert Decode(s) == Some(bytes);
      assert bytes[1..] == rest;
      var e := EncodeByte(b);
      assert DigitValue(e[0]) == DigitValue(s[0]) && DigitValue(e[1]) == DigitValue(s[1]);
      assert e == s[..2];
      assert Encode(bytes) == e + Encode(rest);
      assert s == s[..2] + s[2..];
    }
  }

  /** Distinct tokens never share an encoding. */
  lemma EncodeInjective(a: seq<Byte>, b: seq<Byte>)
    requires Encode(a) == Encode(b)
    ensures a == b
  {
    DecodeEncode(a);
    DecodeEncode(b);
  }

  /**
   * The device-token strings are exactly the even-length lower-case hex
   * strings: every encoding is one, and every such string is an encoding.
   */
  lemma EncodingsAreHexStrings(s: string)
    ensures (exists bytes :: Encode(bytes) == s) <==> (|s| % 2 == 0 && IsHexString(s))
  {
    if |s| % 2 == 0 && IsHexString(s) {
      DecodeDefined(s);
      EncodeDecode(s);
      assert Encode(Decode(s).value) == s;
    }
  }

  /** Decoding accepts exactly the even-length lower-case hex strings. */
  lemma {:induction false} DecodeDefined(s: string)
    ensures Decode(s).Some? <==> (|s| % 2 == 0 && IsHexString(s))
  {
    if |s| >= 2 {
      DecodeDefined(s[2..]);
      assert forall i :: 2 <= i < |s| ==> s[i] == s[2..][i - 2];
    }
  }
}

=== FILE: wrappers.dfy ===
/** Optional values, standing for Python's `None` / Swift's `nil`. */
module Wrappers {

  datatype Option<+T> = None | Some(value: T) {

    /** Returns the wrapped value, or `default` when there is none. */
    function GetOr(default: T): T {
      match this
      case Some(v) => v
      case None => default
    }
  }
}
